=== FILE: README.md ===
# yii3-validator rule engine in Dafny

A functional model of the rule-evaluation core of the Yii 3 validator
(`Yiisoft\Validator`):

- **Validator.** `validate` turns the input into a data set and lets a data set that provides rules replace the caller's rules. It normalises each attribute's entry into a list of rules (a callable becomes a Callback rule; anything else that is not a rule is a configuration error). It then runs `validateInternal` on the value the attribute selects and hands the result to a post-validation hook. `validateInternal` runs rules in order, keeps the errors of the failing ones, and raises the context's `previousRulesErrored` flag.
- **Nested.** A Nested rule checks its rule tree when built. At evaluation it rejects values that are neither arrays nor objects. It looks each configured path up (an integer key, or a `.`-separated path whose canonical-integer segments select integer keys). In strict mode a missing path gives a "not found" error; otherwise the path's rules run on `null`. Inner errors are re-homed under the path's prefix. `getOptions` walks the rule tree.
- **RulesDumper.** `asArray` turns a rule-set map into a nested options array with the same keys. Each parametrised rule is dumped as its options, optionally headed by its name. Any other entry fails the dump.
- **Boolean.** Defaults `'1'`/`'0'`, non-strict. Strict mode compares by identity and loose mode by `==`. It has immutable modifiers, a formatted message with `{true}`/`{false}` parameters, and options merged over the parent's.

Modules:

- `Values`: PHP values and ordered keyed arrays.
- `Arrays`: `array_merge`.
- `Paths`: `explode`, integer-string keys and dotted lookup.
- `Rules`: rule trees, errors, context, data sets, external collaborators, sizes, `normalizeRule(s)`.
- `BooleanRule` and `NestedRule`: the two rules' configuration.
- `Engine`: rule dispatch, `validateInternal`, Nested evaluation. These are mutually recursive and terminate on the size of the rule tree.
- `EngineFacts` and `NestedExamples`: properties across calls and the documented scenarios.
- `Options`: `getOptions` and Nested's `fetchOptions`.
- `RulesDumper`.
- `Validator`.
- `WellFormed`: when validation never aborts. A rule map is well formed when every entry is a rule, a callable, or an array of those, and every Nested rule inside has a well-formed path map. Nested's construction check admits arrays nested more deeply than evaluation normalises, so a constructed Nested rule need not be well formed.

Code the engine calls but that is not part of this model is a parameter: the `Env` datatype of total functions. It covers:

- the message formatter;
- PHP's loose `==` beyond identity;
- the `when`/emptiness skip policy of the Rule base class;
- Callback closures and the handlers of all other rules;
- the Rule base class's `getOptions` and `getName`;
- the data set's `getData` and `getAttributeValue`.

A configuration error (`InvalidArgumentException`) is an `Outcome.Fatal`. It is never an entry of a result.

## Model

| member | source | states |
|---|---|---|
| `Arrays.Merge` | src/Rule/Boolean.php:117-122 | `array_merge` of arrays with unique keys, on string keys: the second array's value wins, and the first supplies every key the second lacks |
| `Arrays.PushAllKeepsHead` | src/RulesDumper.php:62 | merging more pairs after an integer-keyed first element never moves or replaces it |
| `Arrays.PushAllFreshStrings` | src/RulesDumper.php:62 | merging pairs with unique string keys absent from the accumulator appends them unchanged, in order |
| `Paths.JoinSplit` | src/Rule/Nested.php:142 | `explode('.')` loses nothing: joining the segments with '.' gives the path back |
| `Paths.Split` | src/Rule/Nested.php:142 | `explode` never yields an empty list of segments |
| `Paths.SplitJoin` | src/Rule/Nested.php:142 | splitting the join of undotted segments gives exactly those segments |
| `Paths.SplitUndelimited` | src/Rule/Nested.php:142 | no segment of an exploded path contains '.' |
| `Paths.SplitLeading` | src/Rule/Nested.php:142 | "p.rest" with undotted p explodes to p followed by the segments of rest |
| `Paths.TwoSegments` | src/Rule/Nested.php:142 | "p.q" with undotted p and q explodes to exactly [p, q] |
| `Paths.IntToStringRoundTrip` | src/Validator.php:50 | `(string)$i` is a canonical integer string that parses back to i |
| `Paths.ParseIntRoundTrip` | src/Validator.php:50 | a canonical integer string is the decimal form of the integer it parses to |
| `Paths.SegmentSelectsIntKey` | src/Rule/Nested.php:126 | a path segment selects integer key i exactly when it is the decimal form of i |
| `Paths.NameSegment` | src/Rule/Nested.php:135 | a segment starting with neither a digit nor '-' selects the string key of that name |
| `Paths.Traverse` | src/Rule/Nested.php:135 | no segments select the value itself; a segment through a scalar finds nothing; one segment into an array or object finds exactly that key's value; a found path exists one key at a time |
| `Paths.TraverseAppend` | src/Rule/Nested.php:135 | following s + t is following s and then t from the value s found, and nothing when s finds nothing; with the one-segment case this fixes every dotted path, found or not |
| `Paths.Lookup` | src/Rule/Nested.php:126-135 | an integer key is a direct lookup, and so is an undotted string key, cast to an integer key when canonical |
| `Values.AsArray` | src/Rule/Nested.php:123 | `(array)` of an array is its entries and of an object its properties, in order |
| `Values.TypeName` | src/Rule/Nested.php:117 | `gettype` names exactly arrays and objects "array" or "object", and exactly null "NULL" |
| `Paths.PathExists` | src/Rule/Nested.php:126 | an integer key, or an undotted string key, exists exactly when the array holds that key |
| `Paths.ValueByPath` | src/Rule/Nested.php:135 | the addressed sub-value when the path exists, and null when it does not |
| `Paths.DottedLookup` | src/Rule/Nested.php:126 | a dotted path descends one segment at a time: "p.q" is q looked up in what p selects |
| `Paths.ErrorPrefix` | src/Rule/Nested.php:142 | the prefix of an integer key is that key alone; a string key's is its '.'-segments as string keys |
| `Paths.ErrorPrefixSpellsKey` | src/Rule/Nested.php:142 | a string path's prefix is its segments, at least one, none holding '.', which joined spell the path |
| `Rules.AsList` | src/Validator.php:45 | an array entry is its own list of entries; any other entry is a one-element list |
| `Rules.NormalizeRule` | src/Validator.php:115-130 | a rule stays itself, a callable becomes a Callback rule, and anything else is an `InvalidRule` configuration error |
| `Rules.NormalizeRules` | src/Validator.php:108-113 | succeeds iff every entry is a rule or callable; then one rule per entry, in order, each the normalised entry |
| `Rules.RuleList` | src/Rule/Nested.php:133-134 | an entry's rule list is strictly smaller than the entry, the measure that makes Nested recursion terminate |
| `NestedRule.HasNonRule` | src/Rule/Nested.php:154-163 | a tree the check passes holds at its top level only rules and arrays (NonRuleIsFound and OnlyRulesPass give every depth) |
| `NestedRule.NonRuleIsFound` | src/Rule/Nested.php:154-163 | a callable or other non-rule at any depth of nested arrays is found by the construction check |
| `NestedRule.OnlyRulesPass` | src/Rule/Nested.php:154-163 | a tree of only rules and arrays of rules passes the construction check |
| `NestedRule.Make` | src/Rule/Nested.php:65-78 | construction fails with `EmptyRules` on an empty set, with `NotARule` when a non-rule leaf is found, and succeeds otherwise keeping the settings |
| `NestedRule.WithRules` | src/Rule/Nested.php:83-89 | `rules()` re-runs the construction checks and changes only the rules of the copy |
| `NestedRule.WithMessage` | src/Rule/Nested.php:94-100 | `message()` changes only the message and keeps a constructed rule constructed |
| `NestedRule.WithThrowOnNotFound` | src/Rule/Nested.php:105-111 | the strict-path modifier changes only that flag |
| `NestedRule.Rehome` | src/Rule/Nested.php:141-147 | each re-homed error keeps its message, in order, and its path becomes prefix followed by its own path |
| `NestedRule.RehomeTwice` | src/Rule/Nested.php:141-147 | re-homing twice is re-homing once under the joined prefix |
| `NestedRule.RehomeConcat` | src/Rule/Nested.php:141 | re-homing distributes over concatenation of error lists |
| `NestedRule.NotStructuredMessage` | src/Rule/Nested.php:117 | the type error is the fixed sentence head, the value's PHP type, then " given." |
| `NestedRule.NotStructuredMessageNamesType` | src/Rule/Nested.php:117 | two values get the same type error exactly when their PHP types are the same |
| `NestedRule.NotFoundError` | src/Rule/Nested.php:126-131 | the strict-mode error is the not-found template formatted with the path, with no value path and no parameters |
| `BooleanRule.WithTrueValue` | src/Rule/Boolean.php:46-52 | the copy differs only in the true value |
| `BooleanRule.WithFalseValue` | src/Rule/Boolean.php:57-63 | the copy differs only in the false value |
| `BooleanRule.WithStrict` | src/Rule/Boolean.php:68-74 | the copy differs only in strictness |
| `BooleanRule.WithMessage` | src/Rule/Boolean.php:79-85 | the copy differs only in the message |
| `BooleanRule.MessageParams` | src/Rule/Boolean.php:107-113 | parameters `true` and `false` only; boolean true/false are shown as the words "true"/"false", other values as themselves |
| `BooleanRule.FormattedMessage` | src/Rule/Boolean.php:107-113 | the configured message formatted with the `{true}`/`{false}` parameters of the same values under any strictness and base flags |
| `BooleanRule.FormattedMessageFrame` | src/Rule/Boolean.php:107-113 | two rules that agree on message, true value and false value format alike; in particular changing strictness does not change the message |
| `BooleanRule.Accepts` | src/Rule/Boolean.php:88-92 | a value identical to either configured value is accepted; in strict mode exactly those are; in loose mode exactly the values `==` to one of them are |
| `BooleanRule.Check` | src/Rule/Boolean.php:87-105 | no error iff the value is accepted; otherwise exactly one error carrying the formatted message |
| `BooleanRule.StrictAcceptsExactlyIdentical` | src/Rule/Boolean.php:89-90 | in strict mode a value passes iff it is identical to the true or the false value |
| `BooleanRule.StrictImpliesLoose` | src/Rule/Boolean.php:89-93 | every value strict mode accepts, loose mode accepts |
| `BooleanRule.DefaultAcceptsOneAndZero` | src/Rule/Boolean.php:23-33 | the default rule is loose and accepts '1' and '0' |
| `BooleanRule.Options` | src/Rule/Boolean.php:115-123 | over a parent with unique keys, every string key reads the rule's own value when it sets that key and the parent's otherwise |
| `BooleanRule.OptionsOverrideParent` | src/Rule/Boolean.php:115-123 | the options hold trueValue, falseValue, strict and the formatted message over any same-named parent option; other parent options are kept |
| `BooleanRule.OwnOptionsGet` | src/Rule/Boolean.php:117-122 | the rule's own options have four distinct keys, each holding its setting, and nothing under any other key |
| `BooleanRule.OptionsGet` | src/Rule/Boolean.php:115-123 | a key of the merged options reads the rule's own value for its four keys and the parent's value for every other key |
| `Engine.Skipped` | src/Validator.php:93-94 | a rule skips null when it skips on empty and skips everything after a failure when it skips on error; apart from the external `when` policy, a skip is always one of those two, with its own flag set |
| `Engine.Apply` | src/Validator.php:93-94 | a skipped rule yields nothing; a Boolean rule yields its check; a Nested rule on a non-structured value yields the type error; a callback or any other rule yields exactly its handler's errors for the value and context; failures are only `InvalidRule` |
| `Engine.Next` | src/Validator.php:95-100 | the context the next rule runs under is the same context, its flag raised iff it was raised or the rule produced errors |
| `Engine.ValidateInternal` | src/Validator.php:89-106 | the flag comes out raised iff it went in raised or some error was produced; nothing else in the context changes |
| `Engine.NestedValidate` | src/Rule/Nested.php:113-121 | a value that is neither array nor object yields exactly one error with an empty value path |
| `EngineFacts.NestedValidateStructured` | src/Rule/Nested.php:123-125 | on an array or an object, validateValue walks the configured paths over its entries, an object's being its properties |
| `Engine.NestedEntries` | src/Rule/Nested.php:125-149 | no configured paths, no errors; failures are only `InvalidRule` |
| `Engine.NestedEntry` | src/Rule/Nested.php:126-148 | strict and missing: exactly the formatted not-found error; otherwise every error lies under the path's prefix and carries no parameters |
| `EngineFacts.ValidateInternalAppend` | src/Validator.php:92-104 | running r1 + r2 is running r1, then r2 from the context r1 left; errors concatenate in rule order |
| `EngineFacts.ValidateInternalStep` | src/Validator.php:92-104 | a failing head rule fails the pass; otherwise its errors come first and the rest runs from the context the head left |
| `EngineFacts.SingleRule` | src/Validator.php:95-103 | a passing rule contributes nothing and leaves the context; a failing one contributes exactly its errors and raises the flag |
| `EngineFacts.AllSkippedPass` | src/Validator.php:93-94 | rules that are all skipped yield no error and leave the context as it was |
| `EngineFacts.SkipOnEmptyNull` | tests/Rule/NestedHandlerTest.php:117-120 | null against rules that all skip on empty yields no error |
| `EngineFacts.SkipOnErrorAfterFailure` | src/Validator.php:99 | after a failing run, rules that skip on error add nothing |
| `EngineFacts.OnePassTwoFail` | tests/ValidatorTest.php:25-41 | three rules, the first passing and two failing once each: exactly those two errors, in order |
| `EngineFacts.NestedEntriesAppend` | src/Rule/Nested.php:125-149 | paths are evaluated in configuration order: errors of es1 + es2 are those of es1 then those of es2 |
| `EngineFacts.NestedEntriesStep` | src/Rule/Nested.php:125-149 | the first configured path's errors come before the rest's; the first failure wins |
| `EngineFacts.EntryRehomes` | src/Rule/Nested.php:133-148 | an evaluated entry contributes its rules' errors re-homed under its prefix; a passing entry contributes nothing |
| `EngineFacts.LenientMissingRunsOnNull` | src/Rule/Nested.php:133-136 | with the strict flag off a missing path is not skipped: its rules run against null and their errors are re-homed |
| `EngineFacts.LenientMissingSkipOnEmpty` | tests/Rule/NestedHandlerTest.php:117-120 | a missing path whose rules skip on empty contributes nothing |
| `EngineFacts.NestedInNested` | src/Rule/Nested.php:141-147 | a Nested rule inside a Nested rule yields paths prefixed by both keys |
| `NestedExamples.ScalarRejected` | tests/Rule/NestedHandlerTest.php:41-46 | the empty string gives exactly "Value should be an array or an object. string given." with an empty path |
| `NestedExamples.PositionalInPositional` | tests/Rule/NestedHandlerTest.php:76-84 | integer key 0 inside integer key 0: the inner failure surfaces under [0, 0] |
| `NestedExamples.DottedThenNamed` | tests/Rule/NestedHandlerTest.php:57-75 | a dotted outer path, a passing rule, then a Nested rule: the inner failure surfaces under all three segments |
| `NestedExamples.BodyShippingPhone` | tests/Rule/NestedHandlerTest.php:59-74 | 'body.shipping' then 'phone' gives the path [body, shipping, phone] |
| `Options.RuleOptions` | src/Rule/Nested.php:165-168 | Boolean options are its own, other rules' are the base options, a Nested rule's keys are its kept entries' keys; failure is only `NotParametrized` |
| `Options.RuleOptionsNested` | src/Rule/Nested.php:165-168 | a Nested rule's options are exactly the walk over its rules |
| `Options.NestedOptions` | src/Rule/Nested.php:170-190 | the keys are the input's keys minus the skipped rules, in order, each holding an array |
| `Options.EntryOptions` | src/Rule/Nested.php:173-186 | an entry is left out iff it is a rule that cannot be parametrised; a callable or other value is fatal |
| `Options.EntryOptionsContent` | src/Rule/Nested.php:175-178 | an array entry writes its own walk's result and a parametrised rule its options, each failing when that fails |
| `Options.NestedOptionsAt` | src/Rule/Nested.php:172-189 | the j-th written entry is the j-th kept entry, under its own key, holding what that entry's step writes |
| `Options.BadEntryFails` | src/Rule/Nested.php:173-186 | an entry whose own step fails (a non-rule, an array whose walk fails, a parametrised rule whose options fail) fails the whole walk; repeated on the array, at any depth |
| `Options.SoundNeverFails` | src/Rule/Nested.php:170-190 | a tree of rules and arrays whose Nested rules are such trees never fails the walk |
| `Options.SoundIsConstructed` | src/Rule/Nested.php:154-163 | such a tree passes the construction check |
| `Options.SoundIffConstructed` | src/Rule/Nested.php:154-163 | a tree is sound iff it passes the construction check and every Nested rule in it holds a sound tree, so the walk never fails on a rule built from constructed rules |
| `RulesDumper.AsArray` | src/RulesDumper.php:49-52 | `asArray` is `fetchOptions` with the same flag: the dump has the input's keys, in order, and its shape at every level |
| `RulesDumper.DumpRule` | src/RulesDumper.php:60-65 | a non-parametrised rule fails; without names a rule dumps as its options; with names the dump starts with (0, name) |
| `RulesDumper.NamedDumpIsNameThenOptions` | src/RulesDumper.php:61-62 | with names, string-keyed options follow the name unchanged |
| `RulesDumper.FetchOptions` | src/RulesDumper.php:54-78 | same keys and shape as the input, and every rule entry holds that rule's dump |
| `RulesDumper.FetchOptionsAt` | src/RulesDumper.php:57-65 | in a successful dump, an array entry holds its own dump and a rule entry its rule's dump, under the entry's key |
| `RulesDumper.BadEntryFailsDump` | src/RulesDumper.php:57-74 | an entry whose own dump fails (a non-rule, a rule that cannot be parametrised or whose options fail, an array whose dump fails) fails the dump; repeated on the array, at any depth |
| `RulesDumper.DumpSucceedsIffDumpable` | src/RulesDumper.php:54-78 | the dump succeeds iff every entry at every depth is an array of such entries or a rule whose own dump succeeds |
| `RulesDumper.SkippedByNestedFatalInDump` | src/RulesDumper.php:60-74 | a non-parametrised rule is left out by Nested's walk and fails the dump |
| `Validator.NormalizeDataSet` | src/Validator.php:76-87 | a data set is unchanged, an array or object becomes an array data set of its entries, anything else (null too) a scalar data set; only a given data set can provide rules or a hook |
| `Validator.NormalizeIdempotent` | src/Validator.php:78-80 | normalising a normalised data set changes nothing |
| `Validator.EffectiveRules` | src/Validator.php:37-39 | a rules provider's rules replace the caller's entirely |
| `Validator.Target` | src/Validator.php:48-54 | an integer attribute validates the whole payload under its stringified index, which reads back as the same key; a named one validates its own value under the shared context |
| `Validator.ValidateAttribute` | src/Validator.php:45-63 | a bad entry fails the call; the errors are exactly those validateInternal yields for the normalised rules on the target; an integer attribute leaves the shared context as it was; a named one raises its flag iff errors were found |
| `Validator.ValidateAttributes` | src/Validator.php:44-66 | the shared context keeps its data and attribute, and a raised flag stays raised |
| `Validator.Validate` | src/Validator.php:34-73 | the errors are exactly the attribute loop's, which runs from a fresh context over the effective rules; the hook sees them exactly when the data set has one; failures are only `InvalidRule` |
| `Validator.ProvidedRulesOverride` | src/Validator.php:37-39 | a rules provider's result does not depend on the rules argument |
| `Validator.ValidateAttributesAppend` | src/Validator.php:44-66 | errors come attribute by attribute in map order, each attribute starting from the context the previous left |
| `Validator.ValidateAttributesStep` | src/Validator.php:44-66 | the first attribute's errors come first and the rest start from the context it left; the first failure wins |
| `Validator.BadEntryFailsValidation` | src/Validator.php:115-126 | a non-rule entry under any attribute fails the whole call |
| `Validator.BadEntryFailsAttribute` | src/Validator.php:115-126 | a non-rule entry fails its own attribute with `InvalidRule` |
| `Validator.FlagCrossesNamedAttributes` | src/Validator.php:48-60 | a failure under a named attribute raises the flag for the attributes after it; one under an integer attribute does not |
| `Validator.SingleNamedAttribute` | src/Validator.php:44-66 | with one named attribute the report is exactly the errors its rules produce on its value, in rule order |
| `Validator.ValidateConcatenates` | src/Validator.php:44-66 | the report for r1 + r2 is r1's attributes' errors, then r2's, run from the context r1 left |
| `Validator.FailurePropagates` | src/Validator.php:44-66 | a failing attribute, or a failure among the attributes after a passing one, fails the whole loop |
| `WellFormed.NormalizesWellFormed` | src/Validator.php:108-130 | a list of rules and callables normalises, every rule it yields keeping its well-formedness |
| `WellFormed.ApplyNeverFails` | src/Validator.php:92-94 | a well-formed rule never aborts, skipped or not, on any value |
| `WellFormed.ValidateInternalNeverFails` | src/Validator.php:89-106 | a list of well-formed rules runs to a result on any value from any context |
| `WellFormed.NestedEntryNeverFails` | src/Rule/Nested.php:126-148 | a configured path whose entry stands for well-formed rules never aborts |
| `WellFormed.NestedEntriesNeverFails` | src/Rule/Nested.php:125-149 | a well-formed path map never aborts over any array |
| `WellFormed.NestedValidateNeverFails` | src/Rule/Nested.php:113-149 | validateValue of a well-formed Nested rule never aborts, on any value |
| `WellFormed.ValidateAttributesNeverFail` | src/Validator.php:44-66 | a well-formed rule map never aborts the attribute loop |
| `WellFormed.ValidateNeverFails` | src/Validator.php:34-73 | `validate` with a well-formed effective rule map returns a result |

## Left out

- Regex, Subset, CompareTo, Each, Required and every other rule class: their handlers are `Env.leaf`, an external verdict. Regex and Subset are thin wrappers over `preg_match` and an array helper that is not part of this model.
- GroupRule: a one-line delegation to the dumper that passes one argument to a two-parameter `asArray`. It is not modelled.
- The Rule base class's `skipOnEmpty`, `skipOnError` and `when` guards are not part of this model. The guard is `Engine.Skipped`: skip on empty for null, skip on error once the flag is raised, or the external `Env.skips` policy.
- RuleSet is not part of this model. Nested evaluates each path's rules with a fresh context; the model assumes RuleSet normalises entries like `normalizeRule` and evaluates like `validateInternal`.
- The data-set classes, the formatter, `getName` and the base `getOptions` are external functions in `Env`.
- Each rule's own `?FormatterInterface $formatter` constructor argument (src/Rule/Boolean.php:35, src/Rule/Nested.php:56) is not modelled: one `Env.format` serves every rule, so two rules built with different formatters format alike here.
- Handlers cannot write the context's parameter bag: `Env.callback` and `Env.leaf` return only errors, although `ValidationContext::setParameter` is public (used at src/Validator.php:99). A rule that sets or resets `previousRulesErrored` itself is outside this model; only validateInternal raises the flag.
- `ValidationContext::withAttribute` is assumed to copy the context. So a flag raised under an integer attribute does not reach the shared context, while named attributes share it.
- Result and Error are not part of this model. `validate` and `validateInternal` re-add each error from its message and parameters; the model keeps each error as it is. Nested's re-added errors keep only their message and path (their parameters become empty).
- `normalizeRules` is a lazy generator, so earlier rules already ran when a bad entry throws. The model fails the whole call instead.
- Floats and resources are not values of this model. PHP's loose `==` beyond identity is the external `Env.looseEquals`.
- Integer keys are unbounded. The 64-bit range limit of PHP's string-to-integer key cast is not modelled.
- `ArrayHelper::pathExists`/`getValueByPath` are not part of this model. The model's own lookup splits on '.' without escaping and casts canonical integer segments to integer keys.
- `is_callable` on arrays and invokable objects: a callable is a separate kind of entry (`CallableNode`), never also a rule or an array.
- PHP arrays keep their keys unique, so each `$result[$k] = ...` in the option walks appends. Where a property depends on uniqueness (`array_merge`), it is a precondition (`UniqueKeys`).
- Keys are not canonicalised: `Key` admits `StrKey("5")`, which PHP always stores as the integer key 5. Arrays and rule maps holding such keys are junk states with no PHP counterpart; there `ErrorPrefix` gives a string segment where PHP's `is_int` branch would give the integer.
- The dump is deterministic because `FetchOptions` is a function of its inputs; no separate statement is made.
- The Nested tests expect parameters mixed into value paths. The model keeps value path and parameters as separate fields, following src/Rule/Nested.php:128 and 147.

=== FILE: arrays.dfy ===
/**
 PHP's `array_merge`, which the dumper and the Boolean rule use to build
 option arrays: a string key already present is overwritten in place, a new
 string key is appended, and every integer-keyed element is appended under a
 fresh index (array_merge numbers integer keys 0, 1, 2, ... in order).
 */
module Arrays {
  import opened Values

  /** Number of integer keys; in an array built by array_merge this is the
      next free index. */
  function IntCount<V>(a: seq<Pair<V>>): nat {
    if a == [] then 0 else (if a[0].key.IntKey? then 1 else 0) + IntCount(a[1..])
  }

  /** `$a[$k] = $v`: overwrite the pair keyed `k` in place, or append. */
  function Put<V>(a: seq<Pair<V>>, k: Key, v: V): seq<Pair<V>> {
    if a == [] then [Pair(k, v)]
    else if a[0].key == k then [Pair(k, v)] + a[1..]
    else [a[0]] + Put(a[1..], k, v)
  }

  /** One step of array_merge. */
  function Push<V>(acc: seq<Pair<V>>, p: Pair<V>): seq<Pair<V>> {
    if p.key.IntKey? then acc + [Pair(IntKey(IntCount(acc)), p.value)]
    else Put(acc, p.key, p.value)
  }

  function PushAll<V>(acc: seq<Pair<V>>, xs: seq<Pair<V>>): seq<Pair<V>>
    decreases |xs|
  {
    if xs == [] then acc else PushAll(Push(acc, xs[0]), xs[1..])
  }

  /** `array_merge($a, $b)`: on string keys the second array wins, and the
      first supplies every key the second lacks. */
  function Merge<V>(a: seq<Pair<V>>, b: seq<Pair<V>>): (r: seq<Pair<V>>)
    ensures UniqueKeys(a) && UniqueKeys(b) ==> forall s :: (Get(r, StrKey(s)) ==
      if StrKey(s) in Keys(b) then Get(b, StrKey(s)) else Get(a, StrKey(s)))
  {
    MergeStrKeys(a, b);
    PushAll(PushAll([], a), b)
  }

  lemma {:induction false} GetPutSame<V>(a: seq<Pair<V>>, k: Key, v: V)
    ensures Get(Put(a, k, v), k) == Some(v)
  {
    if a != [] && a[0].key != k {
      GetPutSame(a[1..], k, v);
    }
  }

  lemma {:induction false} GetPutOther<V>(a: seq<Pair<V>>, k: Key, v: V, k': Key)
    requires k' != k
    ensures Get(Put(a, k, v), k') == Get(a, k')
  {
    if a != [] && a[0].key != k {
      GetPutOther(a[1..], k, v, k');
    }
  }

  lemma GetAppend<V>(a: seq<Pair<V>>, p: Pair<V>, k: Key)
    requires k != p.key
    ensures Get(a + [p], k) == Get(a, k)
  {
    if a != [] {
      assert (a + [p])[1..] == a[1..] + [p];
    }
  }

  /** A string key read after one merge step. */
  lemma GetPushStr<V>(acc: seq<Pair<V>>, p: Pair<V>, s: string)
    ensures Get(Push(acc, p), StrKey(s)) == if p.key == StrKey(s) then Some(p.value) else Get(acc, StrKey(s))
  {
    if p.key.IntKey? {
      GetAppend(acc, Pair(IntKey(IntCount(acc)), p.value), StrKey(s));
    } else if p.key == StrKey(s) {
      GetPutSame(acc, p.key, p.value);
    } else {
      GetPutOther(acc, p.key, p.value, StrKey(s));
    }
  }

  /** Merging unique-keyed pairs: a string key comes from the pairs when
      they hold it, and from the accumulator otherwise. */
  lemma {:induction false} GetPushAllStr<V>(acc: seq<Pair<V>>, xs: seq<Pair<V>>, s: string)
    requires UniqueKeys(xs)
    ensures Get(PushAll(acc, xs), StrKey(s)) == if StrKey(s) in Keys(xs) then Get(xs, StrKey(s)) else Get(acc, StrKey(s))
    decreases |xs|
  {
    if xs != [] {
      UniqueTail(xs);
      assert Keys(xs) == [xs[0].key] + Keys(xs[1..]);
      GetPushAllStr(Push(acc, xs[0]), xs[1..], s);
      GetPushStr(acc, xs[0], s);
      if StrKey(s) in Keys(xs[1..]) {
        var j :| 0 <= j < |Keys(xs[1..])| && Keys(xs[1..])[j] == StrKey(s);
        assert xs[j + 1].key == StrKey(s);
        assert xs[0].key != StrKey(s);
      }
    }
  }

  /** The string keys of the two-step merge. */
  lemma MergeStrKeys<V>(a: seq<Pair<V>>, b: seq<Pair<V>>)
    ensures UniqueKeys(a) && UniqueKeys(b) ==> forall s :: (Get(PushAll(PushAll([], a), b), StrKey(s)) ==
      if StrKey(s) in Keys(b) then Get(b, StrKey(s)) else Get(a, StrKey(s)))
  {
    if UniqueKeys(a) && UniqueKeys(b) {
      forall s ensures Get(PushAll(PushAll([], a), b), StrKey(s)) ==
        if StrKey(s) in Keys(b) then Get(b, StrKey(s)) else Get(a, StrKey(s))
      {
        GetPushAllStr(PushAll([], a), b, s);
        GetPushAllStr([], a, s);
      }
    }
  }

  /** Merging never disturbs an integer-keyed first element. */
  lemma {:induction false} PushAllKeepsHead<V>(acc: seq<Pair<V>>, xs: seq<Pair<V>>)
    requires acc != [] && acc[0].key.IntKey?
    ensures |PushAll(acc, xs)| > 0 && PushAll(acc, xs)[0] == acc[0]
    decreases |xs|
  {
    if xs != [] {
      var next := Push(acc, xs[0]);
      if xs[0].key.StrKey? {
        assert Put(acc, xs[0].key, xs[0].value)[0] == acc[0];
      }
      PushAllKeepsHead(next, xs[1..]);
    }
  }

  /** No key of `xs` already occurs in `acc`. */
  ghost predicate Fresh<V>(acc: seq<Pair<V>>, xs: seq<Pair<V>>) {
    forall i, j :: 0 <= i < |xs| && 0 <= j < |acc| ==> xs[i].key != acc[j].key
  }

  /** Appending fresh, unique string keys is plain concatenation. */
  lemma {:induction false} PushAllFreshStrings<V>(acc: seq<Pair<V>>, xs: seq<Pair<V>>)
    requires forall i :: 0 <= i < |xs| ==> xs[i].key.StrKey?
    requires Fresh(acc, xs) && UniqueKeys(xs)
    ensures PushAll(acc, xs) == acc + xs
    decreases |xs|
  {
    if xs == [] {
      assert acc + xs == acc;
    } else {
      var next := acc + [xs[0]];
      PushFreshString(acc, xs[0]);
      FreshTail(acc, xs);
      UniqueTail(xs);
      PushAllFreshStrings(next, xs[1..]);
      assert PushAll(acc, xs) == PushAll(next, xs[1..]);
      assert next + xs[1..] == acc + xs;
    }
  }

  lemma {:induction false} PushFreshString<V>(acc: seq<Pair<V>>, p: Pair<V>)
    requires p.key.StrKey?
    requires forall j :: 0 <= j < |acc| ==> p.key != acc[j].key
    ensures Push(acc, p) == acc + [p]
  {
    if acc != [] {
      PushFreshString(acc[1..], p);
    }
  }

  lemma FreshTail<V>(acc: seq<Pair<V>>, xs: seq<Pair<V>>)
    requires xs != [] && Fresh(acc, xs) && UniqueKeys(xs)
    ensures Fresh(acc + [xs[0]], xs[1..])
  {
    forall i, j | 0 <= i < |xs[1..]| && 0 <= j < |acc + [xs[0]]|
      ensures xs[1..][i].key != (acc + [xs[0]])[j].key
    {
      assert xs[1..][i] == xs[i + 1];
    }
  }

  lemma UniqueTail<V>(xs: seq<Pair<V>>)
    requires xs != [] && UniqueKeys(xs)
    ensures UniqueKeys(xs[1..])
  {
    forall i, j | 0 <= i < j < |xs[1..]| ensures xs[1..][i].key != xs[1..][j].key {
      assert xs[1..][i] == xs[i + 1] && xs[1..][j] == xs[j + 1];
    }
  }
}

=== FILE: boolean.dfy ===
/**
 The Boolean rule: the value must equal the configured true value or false
 value, compared by identity (`===`) in strict mode and by PHP's loose `==`
 otherwise.
 */
module BooleanRule {
  import opened Values
  import opened Arrays
  import opened Rules

  const DefaultMessage := "The value must be either \"{true}\" or \"{false}\"."

  /** `new Boolean()`: true value '1', false value '0', loose comparison. */
  const Default := BooleanConfig(Str("1"), Str("0"), false, DefaultMessage, DefaultBase)

  // ---------------------------------------------------------------------
  // Immutable modifiers: each returns a copy differing in one field.

  function WithTrueValue(b: BooleanConfig, v: Value): (r: BooleanConfig)
    ensures r.trueValue == v
    ensures r.falseValue == b.falseValue && r.strict == b.strict && r.message == b.message && r.base == b.base
  {
    b.(trueValue := v)
  }

  function WithFalseValue(b: BooleanConfig, v: Value): (r: BooleanConfig)
    ensures r.falseValue == v
    ensures r.trueValue == b.trueValue && r.strict == b.strict && r.message == b.message && r.base == b.base
  {
    b.(falseValue := v)
  }

  function WithStrict(b: BooleanConfig, strict: bool): (r: BooleanConfig)
    ensures r.strict == strict
    ensures r.trueValue == b.trueValue && r.falseValue == b.falseValue && r.message == b.message && r.base == b.base
  {
    b.(strict := strict)
  }

  function WithMessage(b: BooleanConfig, message: string): (r: BooleanConfig)
    ensures r.message == message
    ensures r.trueValue == b.trueValue && r.falseValue == b.falseValue && r.strict == b.strict && r.base == b.base
  {
    b.(message := message)
  }

  // ---------------------------------------------------------------------
  // validateValue

  /** PHP's `==`: identity always implies it; beyond identity it is external. */
  predicate LooseEquals(env: Env, a: Value, c: Value) {
    a == c || env.looseEquals(a, c)
  }

  /** Whether `validateValue` accepts `v`: identity with one of the two
      values in strict mode, PHP's `==` with one of them otherwise. */
  function Accepts(env: Env, b: BooleanConfig, v: Value): (a: bool)
    ensures v == b.trueValue || v == b.falseValue ==> a
    ensures b.strict ==> (a <==> v == b.trueValue || v == b.falseValue)
    ensures !b.strict ==> (a <==> LooseEquals(env, v, b.trueValue) || LooseEquals(env, v, b.falseValue))
  {
    if b.strict then v == b.trueValue || v == b.falseValue
    else LooseEquals(env, v, b.trueValue) || LooseEquals(env, v, b.falseValue)
  }

  /** The `{true}` / `{false}` parameters: a boolean true (false) value is
      shown as the word "true" ("false"). */
  function MessageParams(b: BooleanConfig): (p: map<string, Value>)
    ensures p.Keys == {"true", "false"}
    ensures p["true"] == if b.trueValue == Bool(true) then Str("true") else b.trueValue
    ensures p["false"] == if b.falseValue == Bool(false) then Str("false") else b.falseValue
  {
    map["true" := if b.trueValue == Bool(true) then Str("true") else b.trueValue,
        "false" := if b.falseValue == Bool(false) then Str("false") else b.falseValue]
  }

  /** `getFormattedMessage`: the template through the external formatter.
      Strictness and the base flags play no part in it. */
  function FormattedMessage(env: Env, b: BooleanConfig): (m: string)
    ensures m == env.format(b.message, MessageParams(BooleanConfig(b.trueValue, b.falseValue, false, b.message, DefaultBase)))
  {
    env.format(b.message, MessageParams(b))
  }

  /** Two rules that agree on the message and the two values format alike. */
  lemma FormattedMessageFrame(env: Env, b: BooleanConfig, c: BooleanConfig)
    requires b.message == c.message && b.trueValue == c.trueValue && b.falseValue == c.falseValue
    ensures FormattedMessage(env, b) == FormattedMessage(env, c)
    ensures FormattedMessage(env, WithStrict(b, !b.strict)) == FormattedMessage(env, b)
  {
  }

  /** Boolean::validateValue. */
  function Check(env: Env, b: BooleanConfig, v: Value): (errs: seq<Error>)
    ensures errs == [] <==> Accepts(env, b, v)
    ensures !Accepts(env, b, v) ==> errs == [Error(FormattedMessage(env, b), [], map[])]
  {
    if Accepts(env, b, v) then [] else [Error(FormattedMessage(env, b), [], map[])]
  }

  /** Strict acceptance is identity with one of the two configured values. */
  lemma StrictAcceptsExactlyIdentical(env: Env, b: BooleanConfig, v: Value)
    requires b.strict
    ensures Check(env, b, v) == [] <==> (v == b.trueValue || v == b.falseValue)
  {
  }

  /** Whatever strict mode accepts, loose mode accepts too. */
  lemma StrictImpliesLoose(env: Env, b: BooleanConfig, v: Value)
    ensures Check(env, WithStrict(b, true), v) == [] ==> Check(env, WithStrict(b, false), v) == []
  {
  }

  /** The default rule accepts the strings '1' and '0' whatever `==` means. */
  lemma DefaultAcceptsOneAndZero(env: Env)
    ensures Check(env, Default, Str("1")) == [] && Check(env, Default, Str("0")) == []
    ensures !Default.strict
  {
  }

  // ---------------------------------------------------------------------
  // getOptions

  /** `array_merge(parent::getOptions(), [...])`: the rule's own options
      over the parent's. */
  function Options(env: Env, b: BooleanConfig): (r: seq<Pair<Value>>)
    ensures UniqueKeys(env.baseOptions(Boolean(b))) ==> forall s :: (Get(r, StrKey(s)) ==
      if StrKey(s) in Keys(OwnOptions(env, b)) then Get(OwnOptions(env, b), StrKey(s))
      else Get(env.baseOptions(Boolean(b)), StrKey(s)))
  {
    OwnOptionsUnique(env, b);
    Merge(env.baseOptions(Boolean(b)), OwnOptions(env, b))
  }

  function OwnOptions(env: Env, b: BooleanConfig): seq<Pair<Value>> {
    [Pair(StrKey("trueValue"), b.trueValue),
     Pair(StrKey("falseValue"), b.falseValue),
     Pair(StrKey("strict"), Bool(b.strict)),
     Pair(StrKey("message"), Str(FormattedMessage(env, b)))]
  }

  lemma OwnOptionsUnique(env: Env, b: BooleanConfig)
    ensures UniqueKeys(OwnOptions(env, b))
  {
    assert |"trueValue"| == 9 && |"falseValue"| == 10 && |"strict"| == 6 && |"message"| == 7;
  }

  /** The rule's own options: four distinct keys, each with its setting. */
  lemma OwnOptionsGet(env: Env, b: BooleanConfig, s: string)
    ensures Get(OwnOptions(env, b), StrKey(s)) ==
      if s == "trueValue" then Some(b.trueValue)
      else if s == "falseValue" then Some(b.falseValue)
      else if s == "strict" then Some(Bool(b.strict))
      else if s == "message" then Some(Str(FormattedMessage(env, b)))
      else None
  {
    var own := OwnOptions(env, b);
    assert |"trueValue"| == 9 && |"falseValue"| == 10 && |"strict"| == 6 && |"message"| == 7;
    var k := StrKey(s);
    assert own[1..][1..][1..][1..] == [];
    assert Get(own[1..][1..][1..], k) == if s == "message" then Some(Str(FormattedMessage(env, b))) else None;
    assert Get(own[1..][1..], k) == if s == "strict" then Some(Bool(b.strict)) else Get(own[1..][1..][1..], k);
    assert Get(own[1..], k) == if s == "falseValue" then Some(b.falseValue) else Get(own[1..][1..], k);
  }

  /** The four options hold the rule's settings and the formatted message,
      overriding same-named parent options; every other parent option is
      kept. */
  lemma OptionsOverrideParent(env: Env, b: BooleanConfig, s: string)
    requires UniqueKeys(env.baseOptions(Boolean(b)))
    ensures Get(Options(env, b), StrKey("trueValue")) == Some(b.trueValue)
    ensures Get(Options(env, b), StrKey("falseValue")) == Some(b.falseValue)
    ensures Get(Options(env, b), StrKey("strict")) == Some(Bool(b.strict))
    ensures Get(Options(env, b), StrKey("message")) == Some(Str(FormattedMessage(env, b)))
    ensures s !in {"trueValue", "falseValue", "strict", "message"} ==>
      Get(Options(env, b), StrKey(s)) == Get(env.baseOptions(Boolean(b)), StrKey(s))
  {
    assert |"trueValue"| == 9 && |"falseValue"| == 10 && |"strict"| == 6 && |"message"| == 7;
    OptionsGet(env, b, "trueValue");
    OptionsGet(env, b, "falseValue");
    OptionsGet(env, b, "strict");
    OptionsGet(env, b, "message");
    OptionsGet(env, b, s);
  }

  /** One key of the merged options: the rule's own value when it has one,
      the parent's otherwise. */
  lemma OptionsGet(env: Env, b: BooleanConfig, s: string)
    requires UniqueKeys(env.baseOptions(Boolean(b)))
    ensures Get(Options(env, b), StrKey(s)) ==
      if s == "trueValue" then Some(b.trueValue)
      else if s == "falseValue" then Some(b.falseValue)
      else if s == "strict" then Some(Bool(b.strict))
      else if s == "message" then Some(Str(FormattedMessage(env, b)))
      else Get(env.baseOptions(Boolean(b)), StrKey(s))
  {
    OwnOptionsGet(env, b, s);
  }
}

=== FILE: dumper.dfy ===
/**
 RulesDumper: a rule-set map turned into a nested array of options, one
 entry per key at every level, optionally headed by the rule's name. Unlike
 Nested's own walk, it never skips an entry: anything that is neither an
 array nor a parametrised rule fails the whole dump.
 */
module RulesDumper {
  import opened Values
  import opened Arrays
  import opened Rules
  import opened Options

  /** `asArray($ruleSetMap, $dumpRuleName)`. */
  function AsArray(env: Env, ruleSetMap: seq<Pair<Node>>, dumpRuleName: bool): (o: Outcome<seq<Pair<Value>>>)
    ensures o == FetchOptions(env, ruleSetMap, dumpRuleName)
    ensures o.Ok? ==> Keys(o.value) == Keys(ruleSetMap) && Mirrors(ruleSetMap, o.value)
    ensures o.Fatal? ==> o.error == NotParametrized
  {
    FetchOptions(env, ruleSetMap, dumpRuleName)
  }

  /** What a parametrised rule dumps as. */
  function DumpRule(env: Env, r: Rule, dumpRuleName: bool): (o: Outcome<seq<Pair<Value>>>)
    ensures !Parametrized(r) ==> o == Fatal(NotParametrized)
    ensures Parametrized(r) && !dumpRuleName ==> o == RuleOptions(env, r)
    ensures Parametrized(r) && dumpRuleName ==> (o.Ok? <==> RuleOptions(env, r).Ok?)
    ensures Parametrized(r) && dumpRuleName && o.Ok? ==>
      |o.value| > 0 && o.value[0] == Pair(IntKey(0), Str(env.name(r)))
    ensures o.Fatal? ==> o.error == NotParametrized
  {
    if !Parametrized(r) then Fatal(NotParametrized)
    else
      match RuleOptions(env, r)
      case Fatal(e) => Fatal(e)
      case Ok(opts) =>
        if dumpRuleName then
          var head := [Pair(IntKey(0), Str(env.name(r)))];
          assert PushAll([], head) == head;
          PushAllKeepsHead(head, opts);
          Ok(Merge(head, opts))
        else Ok(opts)
  }

  /** With the name dumped, options with unique string keys follow the name
      unchanged. */
  lemma NamedDumpIsNameThenOptions(env: Env, r: Rule)
    requires Parametrized(r) && RuleOptions(env, r).Ok?
    requires var opts := RuleOptions(env, r).value;
      UniqueKeys(opts) && forall i :: 0 <= i < |opts| ==> opts[i].key.StrKey?
    ensures DumpRule(env, r, true) == Ok([Pair(IntKey(0), Str(env.name(r)))] + RuleOptions(env, r).value)
  {
    var head := [Pair(IntKey(0), Str(env.name(r)))];
    var opts := RuleOptions(env, r).value;
    assert PushAll([], head) == head;
    PushAllFreshStrings(head, opts);
  }

  /** The output has the input's shape: the same keys in the same order at
      every level, an array wherever the input has one. */
  ghost predicate Mirrors(es: seq<Pair<Node>>, out: seq<Pair<Value>>)
    decreases EntriesSize(es)
  {
    if es == [] then out == []
    else
      EntriesSizeCons(es);
      && out != []
      && out[0].key == es[0].key
      && out[0].value.Arr?
      && (es[0].value.ListNode? ==> (NodeSizeList(es[0].value.entries); Mirrors(es[0].value.entries, out[0].value.entries)))
      && Mirrors(es[1..], out[1..])
  }

  /** fetchOptions of RulesDumper. */
  function FetchOptions(env: Env, es: seq<Pair<Node>>, dumpRuleName: bool): (o: Outcome<seq<Pair<Value>>>)
    ensures o.Ok? ==> Keys(o.value) == Keys(es) && Mirrors(es, o.value)
    ensures o.Ok? ==> forall i :: 0 <= i < |es| && es[i].value.RuleNode? ==>
      DumpRule(env, es[i].value.rule, dumpRuleName).Ok?
      && o.value[i].value == Arr(DumpRule(env, es[i].value.rule, dumpRuleName).value)
    ensures o.Fatal? ==> o.error == NotParametrized
    decreases EntriesSize(es)
  {
    if es == [] then Ok([])
    else
      EntriesSizeCons(es);
      var head: Outcome<seq<Pair<Value>>> :=
        if es[0].value.ListNode? then
          NodeSizeList(es[0].value.entries);
          FetchOptions(env, es[0].value.entries, dumpRuleName)
        else if es[0].value.RuleNode? then DumpRule(env, es[0].value.rule, dumpRuleName)
        else Fatal(NotParametrized);
      match head
      case Fatal(e) => Fatal(e)
      case Ok(h) =>
        match FetchOptions(env, es[1..], dumpRuleName)
        case Fatal(e) => Fatal(e)
        case Ok(rest) =>
          var out := [Pair(es[0].key, Arr(h))] + rest;
          assert Keys(out) == [es[0].key] + Keys(rest);
          assert out[1..] == rest;
          assert forall i :: 1 <= i < |es| ==> es[i] == es[1..][i - 1] && out[i] == rest[i - 1];
          Ok(out)
  }

  /** What one entry of a successful dump holds: an array entry its own
      dump, a rule its options (headed by its name when asked). */
  lemma {:induction false} FetchOptionsAt(env: Env, es: seq<Pair<Node>>, dumpRuleName: bool, i: nat)
    requires i < |es| && FetchOptions(env, es, dumpRuleName).Ok?
    ensures var out := FetchOptions(env, es, dumpRuleName).value;
      var sub := es[i].value;
      && out[i].key == es[i].key
      && (sub.ListNode? ==>
            FetchOptions(env, sub.entries, dumpRuleName).Ok?
            && out[i].value == Arr(FetchOptions(env, sub.entries, dumpRuleName).value))
      && (sub.RuleNode? ==>
            DumpRule(env, sub.rule, dumpRuleName).Ok?
            && out[i].value == Arr(DumpRule(env, sub.rule, dumpRuleName).value))
    decreases i
  {
    EntriesSizeCons(es);
    if i == 0 {
      if es[0].value.ListNode? {
        NodeSizeList(es[0].value.entries);
      }
    } else {
      assert es[1..][i - 1] == es[i];
      FetchOptionsAt(env, es[1..], dumpRuleName, i - 1);
    }
  }

  /** No entry is skipped or coerced: one whose own dump fails (a callable,
      any other non-rule value, a rule that cannot be parametrised, an array
      whose dump fails) fails the dump wherever it is; applied again to the
      array, this reaches any depth. */
  lemma {:induction false} BadEntryFailsDump(env: Env, es: seq<Pair<Node>>, dumpRuleName: bool, i: nat)
    requires i < |es|
    requires es[i].value.CallableNode? || es[i].value.OtherNode?
             || (es[i].value.RuleNode? && DumpRule(env, es[i].value.rule, dumpRuleName).Fatal?)
             || (es[i].value.ListNode? && FetchOptions(env, es[i].value.entries, dumpRuleName).Fatal?)
    ensures FetchOptions(env, es, dumpRuleName) == Fatal(NotParametrized)
    decreases i
  {
    EntriesSizeCons(es);
    if i == 0 {
      if es[0].value.ListNode? {
        NodeSizeList(es[0].value.entries);
      }
    } else {
      assert es[1..][i - 1] == es[i];
      BadEntryFailsDump(env, es[1..], dumpRuleName, i - 1);
    }
  }

  /** Every entry, at every depth, is an array of such entries or a rule
      whose own dump succeeds. */
  ghost predicate Dumpable(env: Env, es: seq<Pair<Node>>, dumpRuleName: bool)
    decreases EntriesSize(es)
  {
    if es == [] then true
    else
      EntriesSizeCons(es);
      var here := match es[0].value
        case ListNode(sub) => (NodeSizeList(sub); Dumpable(env, sub, dumpRuleName))
        case RuleNode(r) => DumpRule(env, r, dumpRuleName).Ok?
        case _ => false;
      here && Dumpable(env, es[1..], dumpRuleName)
  }

  /** The dump succeeds exactly on such trees: with BadEntryFailsDump, a
      failure is always some entry's own. */
  lemma {:induction false} DumpSucceedsIffDumpable(env: Env, es: seq<Pair<Node>>, dumpRuleName: bool)
    ensures FetchOptions(env, es, dumpRuleName).Ok? <==> Dumpable(env, es, dumpRuleName)
    decreases EntriesSize(es)
  {
    if es != [] {
      EntriesSizeCons(es);
      DumpSucceedsIffDumpable(env, es[1..], dumpRuleName);
      if es[0].value.ListNode? {
        NodeSizeList(es[0].value.entries);
        DumpSucceedsIffDumpable(env, es[0].value.entries, dumpRuleName);
      }
    }
  }

  /** The one place the two walks differ: a rule that cannot be
      parametrised is left out by Nested's getOptions and fails the dump. */
  lemma SkippedByNestedFatalInDump(env: Env, k: Key, r: Rule, dumpRuleName: bool)
    requires !Parametrized(r)
    ensures NestedOptions(env, [Pair(k, RuleNode(r))]) == Ok([])
    ensures FetchOptions(env, [Pair(k, RuleNode(r))], dumpRuleName) == Fatal(NotParametrized)
  {
    var es := [Pair(k, RuleNode(r))];
    EntriesSizeCons(es);
    assert es[1..] == [];
  }
}

=== FILE: engine.dfy ===
/**
 The rule-evaluation engine: Validator::validateInternal, rule dispatch
 through the handler registry, and Nested::validateValue, which re-enters
 validateInternal (through RuleSet) on sub-values. The three are mutually
 recursive and terminate on the size of the rule tree.
 */
module Engine {
  import opened Values
  import opened Paths
  import opened Rules
  import BooleanRule
  import opened NestedRule

  /** What one pass of validateInternal yields: the collected errors and the
      context as the pass leaves it. */
  datatype Run = Run(errors: seq<Error>, context: Context)

  /** The Rule base class's guards: skipOnEmpty (null is empty),
      skipOnError (a previous rule errored), and the external `when` /
      emptiness policy. */
  function Skipped(env: Env, r: Rule, v: Value, ctx: Context): (s: bool)
    ensures BaseOf(r).skipOnEmpty && v == Null ==> s
    ensures BaseOf(r).skipOnError && ctx.previousRulesErrored ==> s
    ensures s && !env.skips(r, v, ctx) ==>
      (BaseOf(r).skipOnEmpty && v == Null) || (BaseOf(r).skipOnError && ctx.previousRulesErrored)
  {
    || (BaseOf(r).skipOnEmpty && v == Null)
    || (BaseOf(r).skipOnError && ctx.previousRulesErrored)
    || env.skips(r, v, ctx)
  }

  /** `storage->getValidator(get_class($rule))->validate(...)`: the handler
      for the rule's class, behind the base-class guards. */
  function Apply(env: Env, r: Rule, v: Value, ctx: Context): (o: Outcome<seq<Error>>)
    ensures Skipped(env, r, v, ctx) ==> o == Ok([])
    ensures !Skipped(env, r, v, ctx) && r.Boolean? ==> o == Ok(BooleanRule.Check(env, r.config, v))
    ensures !Skipped(env, r, v, ctx) && r.Nested? && !IsStructured(v) ==> o == Ok([Error(NotStructuredMessage(v), [], map[])])
    ensures !Skipped(env, r, v, ctx) && r.Callback? ==> o == Ok(env.callback(r.id, v, ctx))
    ensures !Skipped(env, r, v, ctx) && r.Leaf? ==> o == Ok(env.leaf(r.tag, v, ctx))
    ensures o.Fatal? ==> o.error == InvalidRule
    decreases RuleSize(r), 0
  {
    if Skipped(env, r, v, ctx) then Ok([])
    else
      match r
      case Boolean(b) => Ok(BooleanRule.Check(env, b, v))
      case Nested(n) =>
        RuleSizeNested(n);
        NestedValidate(env, n, v)
      case Callback(id, _) => Ok(env.callback(id, v, ctx))
      case Leaf(tag, _, _) => Ok(env.leaf(tag, v, ctx))
  }

  /** The context the rule after one yielding `errs` runs under. */
  function Next(ctx: Context, errs: seq<Error>): (r: Context)
    ensures r == ctx.(previousRulesErrored := ctx.previousRulesErrored || errs != [])
  {
    if errs == [] then ctx else ctx.(previousRulesErrored := true)
  }

  /** Validator::validateInternal: every rule in order; a failing rule raises
      the context's previousRulesErrored flag and contributes its errors. */
  function ValidateInternal(env: Env, v: Value, rules: seq<Rule>, ctx: Context): (o: Outcome<Run>)
    ensures o.Ok? ==> o.value.context.previousRulesErrored == (ctx.previousRulesErrored || o.value.errors != [])
    ensures o.Ok? ==> o.value.context == ctx.(previousRulesErrored := o.value.context.previousRulesErrored)
    ensures o.Fatal? ==> o.error == InvalidRule
    decreases RulesSize(rules), 1
  {
    if rules == [] then Ok(Run([], ctx))
    else
      match Apply(env, rules[0], v, ctx)
      case Fatal(e) => Fatal(e)
      case Ok(errs) =>
        match ValidateInternal(env, v, rules[1..], Next(ctx, errs))
        case Fatal(e) => Fatal(e)
        case Ok(rest) => Ok(Run(errs + rest.errors, rest.context))
  }

  /** Nested::validateValue. */
  function NestedValidate(env: Env, n: NestedConfig, v: Value): (o: Outcome<seq<Error>>)
    ensures !IsStructured(v) ==> o == Ok([Error(NotStructuredMessage(v), [], map[])])
    ensures o.Fatal? ==> o.error == InvalidRule
    decreases EntriesSize(n.rules), 3
  {
    if !IsStructured(v) then Ok([Error(NotStructuredMessage(v), [], map[])])
    else NestedEntries(env, n, AsArray(v), n.rules)
  }

  /** The loop over the configured paths, in configuration order. */
  function NestedEntries(env: Env, n: NestedConfig, a: seq<Pair<Value>>, es: seq<Pair<Node>>): (o: Outcome<seq<Error>>)
    ensures es == [] ==> o == Ok([])
    ensures o.Fatal? ==> o.error == InvalidRule
    decreases EntriesSize(es), 2
  {
    if es == [] then Ok([])
    else
      EntriesSizeCons(es);
      match NestedEntry(env, n, a, es[0])
      case Fatal(e) => Fatal(e)
      case Ok(first) =>
        match NestedEntries(env, n, a, es[1..])
        case Fatal(e) => Fatal(e)
        case Ok(rest) => Ok(first + rest)
  }

  /** One configured path: the strict not-found error, or its rules run
      through a fresh RuleSet on the sub-value (null when missing) with the
      errors re-homed under the path. */
  function NestedEntry(env: Env, n: NestedConfig, a: seq<Pair<Value>>, e: Pair<Node>): (o: Outcome<seq<Error>>)
    ensures n.throwOnNotFound && !PathExists(a, e.key) ==> o == Ok([NotFoundError(env, n, e.key)])
    ensures o.Ok? && !(n.throwOnNotFound && !PathExists(a, e.key)) ==>
      forall i :: 0 <= i < |o.value| ==> ErrorPrefix(e.key) <= o.value[i].valuePath && o.value[i].params == map[]
    ensures o.Fatal? ==> o.error == InvalidRule
    decreases NodeSize(e.value), 1
  {
    if n.throwOnNotFound && !PathExists(a, e.key) then Ok([NotFoundError(env, n, e.key)])
    else
      match RuleList(e.value)
      case Fatal(err) => Fatal(err)
      case Ok(rules) =>
        match ValidateInternal(env, ValueByPath(a, e.key), rules, FreshContext)
        case Fatal(err) => Fatal(err)
        case Ok(run) => Ok(Rehome(ErrorPrefix(e.key), run.errors))
  }

  // ---------------------------------------------------------------------
  // Sequencing of outcomes, the first failure winning

  /** One step's run followed by the next step's: errors concatenate, the
      context is the later one's, and a failure of either is the result. */
  function Chain(x: Outcome<Run>, y: Outcome<Run>): Outcome<Run>
  {
    if x.Fatal? then x else if y.Fatal? then y else Ok(Run(x.value.errors + y.value.errors, y.value.context))
  }

  /** The context the next step starts from. */
  function Resume(x: Outcome<Run>, ctx: Context): Context {
    if x.Ok? then x.value.context else ctx
  }

  /** The same sequencing for bare error lists. */
  function Concat(x: Outcome<seq<Error>>, y: Outcome<seq<Error>>): Outcome<seq<Error>>
  {
    if x.Fatal? then x else if y.Fatal? then y else Ok(x.value + y.value)
  }

  lemma ChainAssoc(x: Outcome<Run>, y: Outcome<Run>, z: Outcome<Run>)
    ensures Chain(Chain(x, y), z) == Chain(x, Chain(y, z))
  {
    if x.Ok? && y.Ok? && z.Ok? {
      assert x.value.errors + (y.value.errors + z.value.errors) == (x.value.errors + y.value.errors) + z.value.errors;
    }
  }

  lemma ConcatAssoc(x: Outcome<seq<Error>>, y: Outcome<seq<Error>>, z: Outcome<seq<Error>>)
    ensures Concat(Concat(x, y), z) == Concat(x, Concat(y, z))
  {
    if x.Ok? && y.Ok? && z.Ok? {
      assert x.value + (y.value + z.value) == (x.value + y.value) + z.value;
    }
  }
}

=== FILE: engine_facts.dfy ===
/**
 What the engine promises across calls: ordering and composition of
 validateInternal, the sticky error flag, skipping, and the way Nested
 composes paths.
 */
module EngineFacts {
  import opened Values
  import opened Paths
  import opened Rules
  import opened NestedRule
  import opened Engine

  // ---------------------------------------------------------------------
  // validateInternal

  /** One step of validateInternal: the head rule, then the rest from the
      context the head left. */
  lemma ValidateInternalStep(env: Env, v: Value, rules: seq<Rule>, ctx: Context)
    requires rules != []
    ensures Apply(env, rules[0], v, ctx).Fatal? ==>
      ValidateInternal(env, v, rules, ctx) == Fatal(Apply(env, rules[0], v, ctx).error)
    ensures Apply(env, rules[0], v, ctx).Ok? ==>
      var errs := Apply(env, rules[0], v, ctx).value;
      ValidateInternal(env, v, rules, ctx) ==
        Chain(Ok(Run(errs, Next(ctx, errs))), ValidateInternal(env, v, rules[1..], Next(ctx, errs)))
  {
  }

  /** Running `r1 + r2` is running `r1`, then `r2` from the context `r1`
      left: errors concatenate in rule order and the flag carries over. */
  lemma {:induction false} ValidateInternalAppend(env: Env, v: Value, r1: seq<Rule>, r2: seq<Rule>, ctx: Context)
    ensures var x := ValidateInternal(env, v, r1, ctx);
      ValidateInternal(env, v, r1 + r2, ctx) == Chain(x, ValidateInternal(env, v, r2, Resume(x, ctx)))
    decreases |r1|
  {
    var x := ValidateInternal(env, v, r1, ctx);
    if r1 == [] {
      assert r1 + r2 == r2;
      var none: seq<Error> := [];
      assert forall y: seq<Error> :: none + y == y;
    } else {
      assert (r1 + r2)[0] == r1[0];
      assert (r1 + r2)[1..] == r1[1..] + r2;
      ValidateInternalStep(env, v, r1, ctx);
      ValidateInternalStep(env, v, r1 + r2, ctx);
      var a := Apply(env, r1[0], v, ctx);
      if a.Ok? {
        var next := Next(ctx, a.value);
        var f := Ok(Run(a.value, next));
        var x' := ValidateInternal(env, v, r1[1..], next);
        var y := ValidateInternal(env, v, r2, Resume(x', next));
        ValidateInternalAppend(env, v, r1[1..], r2, next);
        assert ValidateInternal(env, v, r1 + r2, ctx) == Chain(f, Chain(x', y));
        ChainAssoc(f, x', y);
        assert x == Chain(f, x');
        if x'.Ok? {
          assert Resume(x, ctx) == Resume(x', next);
        }
      }
    }
  }

  /** A rule that passes contributes nothing and leaves the context alone;
      a rule that fails contributes exactly its own errors and raises the
      flag. */
  lemma SingleRule(env: Env, v: Value, r: Rule, ctx: Context)
    ensures Apply(env, r, v, ctx).Ok? ==>
      var errs := Apply(env, r, v, ctx).value;
      ValidateInternal(env, v, [r], ctx) ==
        Ok(Run(errs, Next(ctx, errs)))
    ensures Apply(env, r, v, ctx).Fatal? ==> ValidateInternal(env, v, [r], ctx) == Fatal(Apply(env, r, v, ctx).error)
  {
    assert [r][1..] == [];
    match Apply(env, r, v, ctx)
    case Fatal(_) =>
    case Ok(errs) =>
      assert errs + [] == errs;
  }

  /** Rules that are all skipped yield nothing and leave the context as it
      was. */
  lemma {:induction false} AllSkippedPass(env: Env, v: Value, rs: seq<Rule>, ctx: Context)
    requires forall i :: 0 <= i < |rs| ==> Skipped(env, rs[i], v, ctx)
    ensures ValidateInternal(env, v, rs, ctx) == Ok(Run([], ctx))
    decreases |rs|
  {
    if rs != [] {
      assert forall i :: 0 <= i < |rs[1..]| ==> rs[1..][i] == rs[i + 1];
      AllSkippedPass(env, v, rs[1..], ctx);
      var none: seq<Error> := [];
      assert none + none == none;
    }
  }

  /** Null against rules that all skip on empty yields no error. */
  lemma SkipOnEmptyNull(env: Env, rs: seq<Rule>, ctx: Context)
    requires forall i :: 0 <= i < |rs| ==> BaseOf(rs[i]).skipOnEmpty
    ensures ValidateInternal(env, Null, rs, ctx) == Ok(Run([], ctx))
  {
    AllSkippedPass(env, Null, rs, ctx);
  }

  /** After a failure, rules that skip on error contribute nothing: the
      result is that of the rules before them. */
  lemma SkipOnErrorAfterFailure(env: Env, v: Value, r1: seq<Rule>, r2: seq<Rule>, ctx: Context)
    requires ValidateInternal(env, v, r1, ctx).Ok? && ValidateInternal(env, v, r1, ctx).value.errors != []
    requires forall i :: 0 <= i < |r2| ==> BaseOf(r2[i]).skipOnError
    ensures ValidateInternal(env, v, r1 + r2, ctx) == ValidateInternal(env, v, r1, ctx)
  {
    var a := ValidateInternal(env, v, r1, ctx).value;
    assert a.context.previousRulesErrored;
    AllSkippedPass(env, v, r2, a.context);
    ValidateInternalAppend(env, v, r1, r2, ctx);
    assert a.errors + [] == a.errors;
  }

  /** Three rules on one value, the first passing and the other two failing
      with one error each: two errors, in rule order, and the flag raised. */
  lemma OnePassTwoFail(env: Env, v: Value, r0: Rule, r1: Rule, r2: Rule, e1: Error, e2: Error, ctx: Context)
    requires !ctx.previousRulesErrored
    requires Apply(env, r0, v, ctx) == Ok([])
    requires Apply(env, r1, v, ctx) == Ok([e1])
    requires Apply(env, r2, v, ctx.(previousRulesErrored := true)) == Ok([e2])
    ensures ValidateInternal(env, v, [r0, r1, r2], ctx) == Ok(Run([e1, e2], ctx.(previousRulesErrored := true)))
  {
    var raised := ctx.(previousRulesErrored := true);
    SingleRule(env, v, r0, ctx);
    SingleRule(env, v, r1, ctx);
    SingleRule(env, v, r2, raised);
    ValidateInternalAppend(env, v, [r1], [r2], ctx);
    assert [r1] + [r2] == [r1, r2];
    ValidateInternalAppend(env, v, [r0], [r1, r2], ctx);
    assert [r0] + [r1, r2] == [r0, r1, r2];
    var none: seq<Error> := [];
    assert none + ([e1] + [e2]) == [e1, e2];
  }

  // ---------------------------------------------------------------------
  // Nested::validateValue

  /** One step of the loop over the configured paths. */
  lemma NestedEntriesStep(env: Env, n: NestedConfig, a: seq<Pair<Value>>, es: seq<Pair<Node>>)
    requires es != []
    ensures NestedEntries(env, n, a, es) == Concat(NestedEntry(env, n, a, es[0]), NestedEntries(env, n, a, es[1..]))
  {
  }

  /** Entries are evaluated in configuration order: the errors of
      `es1 + es2` are those of `es1` followed by those of `es2`. */
  lemma {:induction false} NestedEntriesAppend(env: Env, n: NestedConfig, a: seq<Pair<Value>>,
                                              es1: seq<Pair<Node>>, es2: seq<Pair<Node>>)
    ensures NestedEntries(env, n, a, es1 + es2) == Concat(NestedEntries(env, n, a, es1), NestedEntries(env, n, a, es2))
    decreases |es1|
  {
    if es1 == [] {
      assert es1 + es2 == es2;
      var none: seq<Error> := [];
      assert forall y: seq<Error> :: none + y == y;
    } else {
      assert (es1 + es2)[0] == es1[0];
      assert (es1 + es2)[1..] == es1[1..] + es2;
      NestedEntriesStep(env, n, a, es1);
      NestedEntriesStep(env, n, a, es1 + es2);
      NestedEntriesAppend(env, n, a, es1[1..], es2);
      ConcatAssoc(NestedEntry(env, n, a, es1[0]), NestedEntries(env, n, a, es1[1..]), NestedEntries(env, n, a, es2));
    }
  }

  /** Whatever the strict flag, one entry whose rules evaluate to `run`
      contributes `run`'s errors re-homed under the entry's prefix, in
      order and with their messages; a passing entry contributes nothing. */
  lemma EntryRehomes(env: Env, n: NestedConfig, a: seq<Pair<Value>>, e: Pair<Node>, rules: seq<Rule>)
    requires !n.throwOnNotFound || PathExists(a, e.key)
    requires RuleList(e.value) == Ok(rules)
    ensures var o := ValidateInternal(env, ValueByPath(a, e.key), rules, FreshContext);
      && (o.Fatal? ==> NestedEntry(env, n, a, e) == Fatal(o.error))
      && (o.Ok? ==> NestedEntry(env, n, a, e) == Ok(Rehome(ErrorPrefix(e.key), o.value.errors)))
      && (o.Ok? && o.value.errors == [] ==> NestedEntry(env, n, a, e) == Ok([]))
  {
  }

  /** With the strict flag off a missing path is not skipped: its rules run
      against null. */
  lemma LenientMissingRunsOnNull(env: Env, n: NestedConfig, a: seq<Pair<Value>>, e: Pair<Node>, rules: seq<Rule>)
    requires !n.throwOnNotFound && !PathExists(a, e.key)
    requires RuleList(e.value) == Ok(rules)
    ensures var o := ValidateInternal(env, Null, rules, FreshContext);
      o.Ok? ==> NestedEntry(env, n, a, e) == Ok(Rehome(ErrorPrefix(e.key), o.value.errors))
  {
    EntryRehomes(env, n, a, e, rules);
  }

  /** A missing path whose rules all skip on empty contributes nothing. */
  lemma LenientMissingSkipOnEmpty(env: Env, n: NestedConfig, a: seq<Pair<Value>>, e: Pair<Node>, rules: seq<Rule>)
    requires !n.throwOnNotFound && !PathExists(a, e.key)
    requires RuleList(e.value) == Ok(rules)
    requires forall i :: 0 <= i < |rules| ==> BaseOf(rules[i]).skipOnEmpty
    ensures NestedEntry(env, n, a, e) == Ok([])
  {
    SkipOnEmptyNull(env, rules, FreshContext);
    EntryRehomes(env, n, a, e, rules);
  }

  /** On an array or an object, validateValue walks the configured paths
      over its entries (the `(array)` cast). */
  lemma NestedValidateStructured(env: Env, n: NestedConfig, v: Value)
    requires IsStructured(v)
    ensures NestedValidate(env, n, v) == NestedEntries(env, n, AsArray(v), n.rules)
    ensures v.Obj? ==> NestedValidate(env, n, v) == NestedEntries(env, n, v.props, n.rules)
  {
  }

  /** A Nested rule as the entry's only rule: the inner rule's (already
      re-homed) errors are re-homed once more under the outer prefix, so
      paths compose. */
  lemma NestedInNested(env: Env, outer: NestedConfig, a: seq<Pair<Value>>, k: Key, inner: NestedConfig,
                       p: seq<Key>, errs: seq<Error>)
    requires !outer.throwOnNotFound || PathExists(a, k)
    requires !Skipped(env, Nested(inner), ValueByPath(a, k), FreshContext)
    requires NestedValidate(env, inner, ValueByPath(a, k)) == Ok(Rehome(p, errs))
    ensures NestedEntry(env, outer, a, Pair(k, RuleNode(Nested(inner)))) == Ok(Rehome(ErrorPrefix(k) + p, errs))
  {
    var e := Pair(k, RuleNode(Nested(inner)));
    assert AsList(e.value) == [Pair(IntKey(0), e.value)];
    var o := RuleList(e.value);
    assert o.Ok? && |o.value| == 1 && NormalizeRule(e.value) == Ok(o.value[0]);
    assert o.value == [Nested(inner)];
    SingleRule(env, ValueByPath(a, k), Nested(inner), FreshContext);
    EntryRehomes(env, outer, a, e, [Nested(inner)]);
    RehomeTwice(ErrorPrefix(k), p, errs);
  }
}

=== FILE: nested.dfy ===
/**
 The Nested rule's configuration side: construction-time shape checks, the
 immutable modifiers, and the error values its evaluation produces (the
 evaluation itself is in Engine, being mutually recursive with rule
 dispatch).
 */
module NestedRule {
  import opened Values
  import opened Paths
  import opened Rules

  const DefaultNotFoundMessage := "Property path \"{path}\" is not found."

  // ---------------------------------------------------------------------
  // initRules / checkRules

  /** `checkRules`: some leaf of the (nested) rule array is not a rule. */
  function HasNonRule(es: seq<Pair<Node>>): (h: bool)
    ensures !h ==> forall i :: 0 <= i < |es| ==> es[i].value.RuleNode? || es[i].value.ListNode?
    decreases EntriesSize(es)
  {
    if es == [] then false
    else
      EntriesSizeCons(es);
      var here := match es[0].value
        case ListNode(sub) => HasNonRule(sub)
        case RuleNode(_) => false
        case _ => true;
      here || HasNonRule(es[1..])
  }

  /** A callable or any other non-rule value anywhere in the tree, at any
      depth of nested arrays, is found. */
  lemma {:induction false} NonRuleIsFound(es: seq<Pair<Node>>, i: nat)
    requires i < |es|
    requires es[i].value.CallableNode? || es[i].value.OtherNode?
             || (es[i].value.ListNode? && HasNonRule(es[i].value.entries))
    ensures HasNonRule(es)
    decreases i
  {
    if i > 0 {
      assert es[1..][i - 1] == es[i];
      NonRuleIsFound(es[1..], i - 1);
    }
  }

  /** A tree holding only rules and arrays of rules passes. */
  lemma {:induction false} OnlyRulesPass(es: seq<Pair<Node>>)
    requires forall i :: 0 <= i < |es| ==> es[i].value.RuleNode? || (es[i].value.ListNode? && !HasNonRule(es[i].value.entries))
    ensures !HasNonRule(es)
    decreases |es|
  {
    if es != [] {
      assert forall i :: 0 <= i < |es[1..]| ==> es[1..][i] == es[i + 1];
      OnlyRulesPass(es[1..]);
    }
  }

  /** `new Nested($rules, ...)`; `baseMessage` is the Rule base class's
      message, which is not part of this model. */
  function Make(rules: seq<Pair<Node>>, throwOnNotFound: bool, notFoundMessage: string,
                baseMessage: string, base: Base): (o: Outcome<NestedConfig>)
    ensures rules == [] ==> o == Fatal(EmptyRules)
    ensures rules != [] && HasNonRule(rules) ==> o == Fatal(NotARule)
    ensures o.Ok? <==> rules != [] && !HasNonRule(rules)
    ensures o.Ok? ==> o.value == NestedConfig(rules, throwOnNotFound, notFoundMessage, baseMessage, base)
  {
    if rules == [] then Fatal(EmptyRules)
    else if HasNonRule(rules) then Fatal(NotARule)
    else Ok(NestedConfig(rules, throwOnNotFound, notFoundMessage, baseMessage, base))
  }

  /** The state every constructed Nested rule is in. */
  predicate Constructed(n: NestedConfig) {
    n.rules != [] && !HasNonRule(n.rules)
  }

  // ---------------------------------------------------------------------
  // Modifiers

  /** `rules()`: re-runs the construction checks on a copy. */
  function WithRules(n: NestedConfig, rules: seq<Pair<Node>>): (o: Outcome<NestedConfig>)
    ensures o.Ok? <==> rules != [] && !HasNonRule(rules)
    ensures rules == [] ==> o == Fatal(EmptyRules)
    ensures o.Fatal? && rules != [] ==> o == Fatal(NotARule)
    ensures o.Ok? ==> o.value.rules == rules && Constructed(o.value)
    ensures o.Ok? ==> (o.value.throwOnNotFound == n.throwOnNotFound && o.value.notFoundMessage == n.notFoundMessage
                       && o.value.message == n.message && o.value.base == n.base)
  {
    Make(rules, n.throwOnNotFound, n.notFoundMessage, n.message, n.base)
  }

  function WithMessage(n: NestedConfig, message: string): (r: NestedConfig)
    ensures r.message == message
    ensures r.rules == n.rules && r.throwOnNotFound == n.throwOnNotFound
         && r.notFoundMessage == n.notFoundMessage && r.base == n.base
    ensures Constructed(n) ==> Constructed(r)
  {
    n.(message := message)
  }

  function WithThrowOnNotFound(n: NestedConfig, value: bool): (r: NestedConfig)
    ensures r.throwOnNotFound == value
    ensures r.rules == n.rules && r.message == n.message
         && r.notFoundMessage == n.notFoundMessage && r.base == n.base
    ensures Constructed(n) ==> Constructed(r)
  {
    n.(throwOnNotFound := value)
  }

  // ---------------------------------------------------------------------
  // Errors produced by validateValue

  /** The message for a value that is neither an array nor an object. */
  function NotStructuredMessage(v: Value): (m: string)
    ensures |m| == |NotStructuredLead| + |TypeName(v)| + |NotStructuredTail|
    ensures m[..|NotStructuredLead|] == NotStructuredLead
    ensures m[|NotStructuredLead|..|m| - |NotStructuredTail|] == TypeName(v)
    ensures m[|m| - |NotStructuredTail|..] == NotStructuredTail
  {
    NotStructuredLead + TypeName(v) + NotStructuredTail
  }

  const NotStructuredLead := "Value should be an array or an object. "
  const NotStructuredTail := " given."

  /** The message tells two values apart exactly when their types differ. */
  lemma NotStructuredMessageNamesType(v: Value, w: Value)
    ensures NotStructuredMessage(v) == NotStructuredMessage(w) <==> TypeName(v) == TypeName(w)
  {
    if NotStructuredMessage(v) == NotStructuredMessage(w) {
      var m := NotStructuredMessage(v);
      assert TypeName(v) == m[|NotStructuredLead|..|m| - |NotStructuredTail|] == TypeName(w);
    }
  }

  function KeyValue(k: Key): Value {
    match k
    case IntKey(i) => Int(i)
    case StrKey(s) => Str(s)
  }

  /** The strict-mode error for a missing path: the formatted template,
      no value path. */
  function NotFoundError(env: Env, n: NestedConfig, k: Key): (e: Error)
    ensures e.valuePath == [] && e.params == map[]
    ensures e.message == env.format(n.notFoundMessage, map["path" := KeyValue(k)])
  {
    Error(env.format(n.notFoundMessage, map["path" := KeyValue(k)]), [], map[])
  }

  /** Re-homes inner errors under `prefix`, keeping each message. */
  function Rehome(prefix: seq<Key>, errs: seq<Error>): (r: seq<Error>)
    ensures |r| == |errs|
    ensures forall i :: 0 <= i < |errs| ==> r[i].message == errs[i].message && r[i].valuePath == prefix + errs[i].valuePath
  {
    seq(|errs|, i requires 0 <= i < |errs| => Error(errs[i].message, prefix + errs[i].valuePath, map[]))
  }

  /** Re-homing twice is re-homing once under the joined prefix: a Nested
      rule inside a Nested rule yields doubly-prefixed paths. */
  lemma RehomeTwice(p: seq<Key>, q: seq<Key>, errs: seq<Error>)
    ensures Rehome(p, Rehome(q, errs)) == Rehome(p + q, errs)
  {
    forall i | 0 <= i < |errs| ensures Rehome(p, Rehome(q, errs))[i] == Rehome(p + q, errs)[i] {
      assert p + (q + errs[i].valuePath) == (p + q) + errs[i].valuePath;
    }
  }

  /** Re-homing preserves order and distributes over concatenation. */
  lemma RehomeConcat(p: seq<Key>, a: seq<Error>, b: seq<Error>)
    ensures Rehome(p, a + b) == Rehome(p, a) + Rehome(p, b)
  {
  }
}

=== FILE: nested_examples.dfy ===
/**
 The documented Nested scenarios, worked through the model with the leaf
 rules' verdicts as hypotheses about their (external) handlers.
 */
module NestedExamples {
  import opened Values
  import opened Paths
  import opened Rules
  import opened NestedRule
  import opened Engine
  import opened EngineFacts

  ghost predicate NoExternalSkips(env: Env) {
    forall r, v, c :: !env.skips(r, v, c)
  }

  function Lenient(rules: seq<Pair<Node>>): NestedConfig {
    NestedConfig(rules, false, DefaultNotFoundMessage, "", DefaultBase)
  }

  /** A scalar is rejected with one error and an empty value path, whatever
      the configured paths. */
  lemma ScalarRejected(env: Env, n: NestedConfig)
    ensures NestedValidate(env, n, Str("")) ==
      Ok([Error("Value should be an array or an object. string given.", [], map[])])
  {
    assert NotStructuredMessage(Str("")) == "Value should be an array or an object. " + "string" + " given.";
    assert "Value should be an array or an object. " + "string" + " given."
        == "Value should be an array or an object. string given.";
  }

  /** `Nested([0 => Nested([0 => [rule]])])` on `[0 => [0 => -11]]`: the
      inner failure surfaces under `[0, 0]`. */
  lemma PositionalInPositional(env: Env, tag: nat, msg: string)
    requires NoExternalSkips(env)
    requires forall c :: env.leaf(tag, Int(-11), c) == [Error(msg, [], map[])]
    ensures
      var leaf := Leaf(tag, true, DefaultBase);
      var inner := Lenient([Pair(IntKey(0), ListNode([Pair(IntKey(0), RuleNode(leaf))]))]);
      var outer := Lenient([Pair(IntKey(0), RuleNode(Nested(inner)))]);
      var data := Arr([Pair(IntKey(0), Arr([Pair(IntKey(0), Int(-11))]))]);
      NestedValidate(env, outer, data) == Ok([Error(msg, [IntKey(0), IntKey(0)], map[])])
  {
    var leaf := Leaf(tag, true, DefaultBase);
    var innerEntry := Pair(IntKey(0), ListNode([Pair(IntKey(0), RuleNode(leaf))]));
    var inner := Lenient([innerEntry]);
    var outer := Lenient([Pair(IntKey(0), RuleNode(Nested(inner)))]);
    var sub := [Pair(IntKey(0), Int(-11))];
    var a := [Pair(IntKey(0), Arr(sub))];

    // The inner rule: one error re-homed under [0].
    var ro := RuleList(innerEntry.value);
    assert ro.Ok? && |ro.value| == 1 && NormalizeRule(RuleNode(leaf)) == Ok(ro.value[0]);
    assert ro.value == [leaf];
    assert ValueByPath(sub, IntKey(0)) == Int(-11);
    SingleRule(env, Int(-11), leaf, FreshContext);
    EntryRehomes(env, inner, sub, innerEntry, [leaf]);
    var leafErrs := [Error(msg, [], map[])];
    assert NestedEntry(env, inner, sub, innerEntry) == Ok(Rehome([IntKey(0)], leafErrs));
    assert [innerEntry][1..] == [];
    assert NestedEntries(env, inner, sub, [innerEntry]) == Ok(Rehome([IntKey(0)], leafErrs) + []);
    assert Rehome([IntKey(0)], leafErrs) + [] == Rehome([IntKey(0)], leafErrs);

    // The outer rule re-homes that once more.
    assert ValueByPath(a, IntKey(0)) == Arr(sub);
    NestedInNested(env, outer, a, IntKey(0), inner, [IntKey(0)], leafErrs);
    var e := Pair(IntKey(0), RuleNode(Nested(inner)));
    var final := Rehome([IntKey(0), IntKey(0)], leafErrs);
    assert [e][1..] == [];
    assert ErrorPrefix(IntKey(0)) + [IntKey(0)] == [IntKey(0), IntKey(0)];
    assert NestedEntry(env, outer, a, e) == Ok(final);
    assert NestedEntries(env, outer, a, [e]) == Ok(final + []);
    assert final + [] == final;
    assert |final| == 1 && final[0] == Error(msg, [IntKey(0), IntKey(0)] + [], map[]);
    assert [IntKey(0), IntKey(0)] + [] == [IntKey(0), IntKey(0)];
    assert final == [Error(msg, [IntKey(0), IntKey(0)], map[])];
    assert NestedValidate(env, outer, Arr(a)) == NestedEntries(env, outer, a, [e]);
  }

  // The 'body.shipping' + 'phone' scenario, for any three plain names.

  /** A name that is one segment and selects a string key. */
  predicate PlainName(s: string) {
    |s| >= 1 && Dot !in s && !IsDigit(s[0]) && s[0] != '-'
  }

  function InnerNested(field: string, regex: nat): NestedConfig {
    Lenient([Pair(StrKey(field), ListNode([Pair(IntKey(0), RuleNode(Leaf(regex, true, DefaultBase)))]))])
  }

  function OuterEntry(path: string, required: nat, inner: NestedConfig): Pair<Node> {
    Pair(StrKey(path), ListNode([
      Pair(IntKey(0), RuleNode(Leaf(required, true, DefaultBase))),
      Pair(IntKey(1), RuleNode(Nested(inner)))]))
  }

  function Leafy(field: string, x: Value): seq<Pair<Value>> {
    [Pair(StrKey(field), x)]
  }

  lemma PlainLookup(field: string, x: Value)
    requires PlainName(field)
    ensures ErrorPrefix(StrKey(field)) == [StrKey(field)]
    ensures ValueByPath(Leafy(field, x), StrKey(field)) == x
  {
    SplitWhole(field, Dot);
    NameSegment(field);
    assert Traverse(Arr(Leafy(field, x)), [field]) == Some(x) by {
      assert [field][1..] == [];
    }
  }

  lemma DottedLookupOf(p: string, q: string, x: Value)
    requires PlainName(p) && PlainName(q)
    ensures ErrorPrefix(StrKey(p + [Dot] + q)) == [StrKey(p), StrKey(q)]
    ensures ValueByPath(Leafy(p, Arr(Leafy(q, x))), StrKey(p + [Dot] + q)) == x
  {
    TwoSegments(p, q, Dot);
    NameSegment(p);
    NameSegment(q);
    assert Traverse(Arr(Leafy(q, x)), [q]) == Some(x) by {
      assert [q][1..] == [];
    }
    assert [p, q][1..] == [q];
  }

  /** The inner rule alone: the leaf failure under `[field]`. */
  lemma InnerFails(env: Env, field: string, regex: nat, x: Value, msg: string)
    requires PlainName(field)
    requires NoExternalSkips(env)
    requires forall c :: env.leaf(regex, x, c) == [Error(msg, [], map[])]
    ensures NestedValidate(env, InnerNested(field, regex), Arr(Leafy(field, x))) ==
      Ok(Rehome([StrKey(field)], [Error(msg, [], map[])]))
  {
    var regexRule := Leaf(regex, true, DefaultBase);
    var inner := InnerNested(field, regex);
    var e := inner.rules[0];
    PlainLookup(field, x);
    var ri := RuleList(e.value);
    assert ri.Ok? && |ri.value| == 1 && NormalizeRule(RuleNode(regexRule)) == Ok(ri.value[0]);
    assert ri.value == [regexRule];
    SingleRule(env, x, regexRule, FreshContext);
    EntryRehomes(env, inner, Leafy(field, x), e, [regexRule]);
    var errs := Rehome([StrKey(field)], [Error(msg, [], map[])]);
    assert [e][1..] == [];
    assert NestedEntries(env, inner, Leafy(field, x), [e]) == Ok(errs + []);
    assert errs + [] == errs;
  }

  /** The outer entry's rules: a passing Required, then the inner Nested
      rule, whose errors are therefore the whole run's. */
  lemma OuterRun(env: Env, path: string, required: nat, field: string, regex: nat, x: Value, msg: string)
    requires PlainName(field)
    requires NoExternalSkips(env)
    requires forall v, c :: env.leaf(required, v, c) == []
    requires forall c :: env.leaf(regex, x, c) == [Error(msg, [], map[])]
    ensures RuleList(OuterEntry(path, required, InnerNested(field, regex)).value).Ok?
    ensures ValidateInternal(env, Arr(Leafy(field, x)),
                             RuleList(OuterEntry(path, required, InnerNested(field, regex)).value).value, FreshContext)
      == Ok(Run(Rehome([StrKey(field)], [Error(msg, [], map[])]), FreshContext.(previousRulesErrored := true)))
  {
    var requiredRule := Leaf(required, true, DefaultBase);
    var nested := Nested(InnerNested(field, regex));
    var sub := Arr(Leafy(field, x));
    var ro := RuleList(OuterEntry(path, required, InnerNested(field, regex)).value);
    assert ro.Ok? && |ro.value| == 2;
    assert NormalizeRule(RuleNode(requiredRule)) == Ok(ro.value[0]);
    assert NormalizeRule(RuleNode(nested)) == Ok(ro.value[1]);
    assert ro.value == [requiredRule] + [nested];
    InnerFails(env, field, regex, x, msg);
    SingleRule(env, sub, requiredRule, FreshContext);
    SingleRule(env, sub, nested, FreshContext);
    ValidateInternalAppend(env, sub, [requiredRule], [nested], FreshContext);
    var none: seq<Error> := [];
    var errs := Rehome([StrKey(field)], [Error(msg, [], map[])]);
    assert none + errs == errs;
  }

  /** `Nested(['body.shipping' => [Required, Nested(['phone' => [rule]])]])`
      on `['body' => ['shipping' => ['phone' => x]]]`: a dotted outer path,
      a passing rule, and an inner failure that surfaces under
      `[body, shipping, phone]`. */
  lemma DottedThenNamed(env: Env, p: string, q: string, field: string, required: nat, regex: nat, x: Value, msg: string)
    requires PlainName(p) && PlainName(q) && PlainName(field)
    requires NoExternalSkips(env)
    requires forall v, c :: env.leaf(required, v, c) == []
    requires forall c :: env.leaf(regex, x, c) == [Error(msg, [], map[])]
    ensures NestedValidate(env, Lenient([OuterEntry(p + [Dot] + q, required, InnerNested(field, regex))]),
                           Arr(Leafy(p, Arr(Leafy(q, Arr(Leafy(field, x))))))) ==
      Ok([Error(msg, [StrKey(p), StrKey(q), StrKey(field)], map[])])
  {
    var outerEntry := OuterEntry(p + [Dot] + q, required, InnerNested(field, regex));
    var outer := Lenient([outerEntry]);
    var a := Leafy(p, Arr(Leafy(q, Arr(Leafy(field, x)))));
    var leafErrs := [Error(msg, [], map[])];
    DottedLookupOf(p, q, Arr(Leafy(field, x)));
    OuterRun(env, p + [Dot] + q, required, field, regex, x, msg);
    EntryRehomes(env, outer, a, outerEntry, RuleList(outerEntry.value).value);
    var prefix := [StrKey(p), StrKey(q)];
    RehomeTwice(prefix, [StrKey(field)], leafErrs);
    var final := Rehome(prefix + [StrKey(field)], leafErrs);
    assert NestedEntry(env, outer, a, outerEntry) == Ok(final);
    assert [outerEntry][1..] == [];
    assert NestedEntries(env, outer, a, [outerEntry]) == Ok(final + []);
    assert final + [] == final;
    assert prefix + [StrKey(field)] + [] == [StrKey(p), StrKey(q), StrKey(field)];
    assert |final| == 1 && final[0] == Error(msg, prefix + [StrKey(field)] + [], map[]);
    assert final == [Error(msg, [StrKey(p), StrKey(q), StrKey(field)], map[])];
  }

  /** The documented instance. */
  lemma BodyShippingPhone(env: Env, required: nat, regex: nat, x: Value, msg: string)
    requires NoExternalSkips(env)
    requires forall v, c :: env.leaf(required, v, c) == []
    requires forall c :: env.leaf(regex, x, c) == [Error(msg, [], map[])]
    ensures NestedValidate(env, Lenient([OuterEntry("body.shipping", required, InnerNested("phone", regex))]),
                           Arr(Leafy("body", Arr(Leafy("shipping", Arr(Leafy("phone", x))))))) ==
      Ok([Error(msg, [StrKey("body"), StrKey("shipping"), StrKey("phone")], map[])])
  {
    assert "body" + [Dot] + "shipping" == "body.shipping";
    DottedThenNamed(env, "body", "shipping", "phone", required, regex, x, msg);
  }
}

=== FILE: options.dfy ===
/**
 `getOptions` of the rules whose code is part of this model, and the Nested
 rule's `fetchOptions` walk over its rule tree. A Nested rule's options are
 the walk's result; a Boolean rule's are its own; every other rule's come
 from the Rule base class, which is not part of this model.

 The walk writes `$result[$attribute] = ...` for each key of a PHP array,
 whose keys are unique, so each write appends.
 */
module Options {
  import opened Values
  import opened Rules
  import BooleanRule
  import NestedRule

  /** `$rule->getOptions()`. */
  function RuleOptions(env: Env, r: Rule): (o: Outcome<seq<Pair<Value>>>)
    ensures r.Boolean? ==> o == Ok(BooleanRule.Options(env, r.config))
    ensures r.Callback? || r.Leaf? ==> o == Ok(env.baseOptions(r))
    ensures r.Nested? && o.Ok? ==> Keys(o.value) == Keys(Kept(r.nested.rules))
    ensures o.Fatal? ==> o.error == NotParametrized
    decreases RuleSize(r), 1
  {
    match r
    case Boolean(b) => Ok(BooleanRule.Options(env, b))
    case Nested(n) =>
      RuleSizeNested(n);
      NestedOptions(env, n.rules)
    case _ => Ok(env.baseOptions(r))
  }

  /** An entry Nested's walk leaves out: a rule that cannot be parametrised. */
  predicate Skippable(n: Node) {
    n.RuleNode? && !Parametrized(n.rule)
  }

  /** The entries the walk keeps, in order. */
  function Kept(es: seq<Pair<Node>>): (ks: seq<Pair<Node>>)
    ensures |ks| <= |es|
  {
    if es == [] then []
    else if Skippable(es[0].value) then Kept(es[1..])
    else [es[0]] + Kept(es[1..])
  }

  /** Nested::fetchOptions: arrays recurse, parametrised rules give their
      options, other rules are skipped, and anything else is fatal. */
  function NestedOptions(env: Env, es: seq<Pair<Node>>): (o: Outcome<seq<Pair<Value>>>)
    ensures o.Ok? ==> Keys(o.value) == Keys(Kept(es))
    ensures o.Ok? ==> forall i :: 0 <= i < |o.value| ==> o.value[i].value.Arr?
    ensures o.Fatal? ==> o.error == NotParametrized
    decreases EntriesSize(es), 3
  {
    if es == [] then Ok([])
    else
      EntriesSizeCons(es);
      match EntryOptions(env, es[0].value)
      case Fatal(e) => Fatal(e)
      case Ok(h) =>
        match NestedOptions(env, es[1..])
        case Fatal(e) => Fatal(e)
        case Ok(rest) =>
          var out := if h.Some? then [Pair(es[0].key, h.value)] + rest else rest;
          assert Keys(out) == (if h.Some? then [es[0].key] else []) + Keys(rest);
          Ok(out)
  }

  /** One entry of the walk: `Some` of what is written under its key, or
      `None` when it is skipped. */
  function EntryOptions(env: Env, n: Node): (o: Outcome<Option<Value>>)
    ensures o.Ok? ==> (o.value.None? <==> Skippable(n))
    ensures o.Ok? && o.value.Some? ==> o.value.value.Arr?
    ensures n.CallableNode? || n.OtherNode? ==> o == Fatal(NotParametrized)
    ensures o.Fatal? ==> o.error == NotParametrized
    decreases NodeSize(n), 2
  {
    match n
    case ListNode(sub) =>
      NodeSizeList(sub);
      (match NestedOptions(env, sub)
       case Fatal(e) => Fatal(e)
       case Ok(opts) => Ok(Some(Arr(opts))))
    case RuleNode(r) =>
      if !Parametrized(r) then Ok(None)
      else
        (match RuleOptions(env, r)
         case Fatal(e) => Fatal(e)
         case Ok(opts) => Ok(Some(Arr(opts))))
    case _ => Fatal(NotParametrized)
  }

  /** A Nested rule's options are its walk's result. */
  lemma RuleOptionsNested(env: Env, n: NestedConfig)
    ensures RuleOptions(env, Nested(n)) == NestedOptions(env, n.rules)
  {
  }

  /** What the walk writes for one entry: an array recurses into its own
      walk, a parametrised rule gives its options, and either fails when
      that does. */
  lemma EntryOptionsContent(env: Env, n: Node)
    ensures n.ListNode? && NestedOptions(env, n.entries).Ok? ==>
      EntryOptions(env, n) == Ok(Some(Arr(NestedOptions(env, n.entries).value)))
    ensures n.ListNode? && NestedOptions(env, n.entries).Fatal? ==> EntryOptions(env, n) == Fatal(NotParametrized)
    ensures n.RuleNode? && Parametrized(n.rule) && RuleOptions(env, n.rule).Ok? ==>
      EntryOptions(env, n) == Ok(Some(Arr(RuleOptions(env, n.rule).value)))
    ensures n.RuleNode? && Parametrized(n.rule) && RuleOptions(env, n.rule).Fatal? ==>
      EntryOptions(env, n) == Fatal(NotParametrized)
  {
    if n.ListNode? {
      NodeSizeList(n.entries);
    }
  }

  /** The j-th written entry is the j-th kept entry, under its own key,
      holding what that entry's step writes. */
  lemma {:induction false} NestedOptionsAt(env: Env, es: seq<Pair<Node>>, j: nat)
    requires NestedOptions(env, es).Ok? && j < |Kept(es)|
    ensures var e := Kept(es)[j];
      && EntryOptions(env, e.value).Ok? && EntryOptions(env, e.value).value.Some?
      && NestedOptions(env, es).value[j] == Pair(e.key, EntryOptions(env, e.value).value.value)
    decreases |es|
  {
    EntriesSizeCons(es);
    var h := EntryOptions(env, es[0].value);
    var rest := NestedOptions(env, es[1..]);
    assert h.Ok? && rest.Ok?;
    if Skippable(es[0].value) {
      assert Kept(es) == Kept(es[1..]);
      NestedOptionsAt(env, es[1..], j);
    } else {
      assert Kept(es) == [es[0]] + Kept(es[1..]);
      assert NestedOptions(env, es).value == [Pair(es[0].key, h.value.value)] + rest.value;
      if j > 0 {
        NestedOptionsAt(env, es[1..], j - 1);
      }
    }
  }

  /** An entry whose own step fails (a callable, any other non-rule value,
      an array whose walk fails, a parametrised rule whose options fail)
      fails the whole walk wherever it is; applied again to the array, this
      reaches any depth. */
  lemma {:induction false} BadEntryFails(env: Env, es: seq<Pair<Node>>, i: nat)
    requires i < |es|
    requires es[i].value.CallableNode? || es[i].value.OtherNode?
             || (es[i].value.ListNode? && NestedOptions(env, es[i].value.entries).Fatal?)
             || (es[i].value.RuleNode? && Parametrized(es[i].value.rule) && RuleOptions(env, es[i].value.rule).Fatal?)
    ensures NestedOptions(env, es) == Fatal(NotParametrized)
    decreases i
  {
    EntriesSizeCons(es);
    if i == 0 {
      EntryOptionsContent(env, es[0].value);
    } else {
      assert es[1..][i - 1] == es[i];
      BadEntryFails(env, es[1..], i - 1);
    }
  }

  /** A rule tree holding only rules and arrays of them, with every Nested
      rule inside it such a tree too: what construction guarantees. */
  ghost predicate Sound(es: seq<Pair<Node>>)
    decreases EntriesSize(es)
  {
    if es == [] then true
    else
      EntriesSizeCons(es);
      var here := match es[0].value
        case ListNode(sub) => (NodeSizeList(sub); Sound(sub))
        case RuleNode(r) => (r.Nested? ==> (RuleSizeNested(r.nested); Sound(r.nested.rules)))
        case _ => false;
      here && Sound(es[1..])
  }

  /** The walk over a sound tree never fails. */
  lemma {:induction false} SoundNeverFails(env: Env, es: seq<Pair<Node>>)
    requires Sound(es)
    ensures NestedOptions(env, es).Ok?
    decreases EntriesSize(es)
  {
    if es != [] {
      EntriesSizeCons(es);
      SoundNeverFails(env, es[1..]);
      match es[0].value
      case ListNode(sub) =>
        NodeSizeList(sub);
        SoundNeverFails(env, sub);
      case RuleNode(r) =>
        if r.Nested? {
          RuleSizeNested(r.nested);
          SoundNeverFails(env, r.nested.rules);
          assert RuleOptions(env, r).Ok?;
        }
        assert EntryOptions(env, es[0].value).Ok?;
    }
  }

  /** Every Nested rule in the tree, through arrays, holds a sound tree. */
  ghost predicate InnerSound(es: seq<Pair<Node>>)
    decreases EntriesSize(es)
  {
    if es == [] then true
    else
      EntriesSizeCons(es);
      var here := match es[0].value
        case ListNode(sub) => (NodeSizeList(sub); InnerSound(sub))
        case RuleNode(r) => (r.Nested? ==> (RuleSizeNested(r.nested); Sound(r.nested.rules)))
        case _ => true;
      here && InnerSound(es[1..])
  }

  /** Soundness is exactly the construction check passing at this level
      with every Nested rule inside sound: what the program builds when each
      Nested rule in the tree was itself constructed from such a tree. */
  lemma {:induction false} SoundIffConstructed(es: seq<Pair<Node>>)
    ensures Sound(es) <==> !NestedRule.HasNonRule(es) && InnerSound(es)
    decreases EntriesSize(es)
  {
    if es != [] {
      EntriesSizeCons(es);
      SoundIffConstructed(es[1..]);
      if es[0].value.ListNode? {
        NodeSizeList(es[0].value.entries);
        SoundIffConstructed(es[0].value.entries);
      }
    }
  }

  /** A sound tree passes the construction check. */
  lemma {:induction false} SoundIsConstructed(es: seq<Pair<Node>>)
    requires Sound(es)
    ensures !NestedRule.HasNonRule(es)
    decreases EntriesSize(es)
  {
    if es != [] {
      EntriesSizeCons(es);
      SoundIsConstructed(es[1..]);
      if es[0].value.ListNode? {
        NodeSizeList(es[0].value.entries);
        SoundIsConstructed(es[0].value.entries);
      }
    }
  }
}

=== FILE: paths.dfy ===
/**
 Dotted property paths. A Nested rule addresses a sub-value either by an
 integer key or by a string such as "author.age", which is split on '.'
 (PHP's `explode`) and followed one segment at a time. A segment reads an
 array key the way PHP does: a canonical decimal string selects the integer
 key with that value, anything else selects the string key.
 */
module Paths {
  import opened Values

  const Dot := '.'

  // ---------------------------------------------------------------------
  // explode / implode

  /** PHP's `explode($d, $s)`: never empty; "" gives [""], "a." gives ["a", ""]. */
  function Split(s: string, d: char): (parts: seq<string>)
    ensures |parts| >= 1
  {
    if |s| == 0 then [""]
    else
      var rest := Split(s[1..], d);
      if s[0] == d then [""] + rest else [[s[0]] + rest[0]] + rest[1..]
  }

  /** PHP's `implode($d, $parts)`. */
  function Join(parts: seq<string>, d: char): string
    requires |parts| >= 1
  {
    if |parts| == 1 then parts[0] else parts[0] + [d] + Join(parts[1..], d)
  }

  ghost predicate Undelimited(parts: seq<string>, d: char) {
    forall i :: 0 <= i < |parts| ==> d !in parts[i]
  }

  /** Splitting loses nothing: joining the parts gives the string back. */
  lemma {:induction false} JoinSplit(s: string, d: char)
    ensures Join(Split(s, d), d) == s
  {
    if |s| > 0 {
      var rest := Split(s[1..], d);
      JoinSplit(s[1..], d);
      if s[0] == d {
        assert Split(s, d) == [""] + rest;
        assert ([""] + rest)[1..] == rest;
        assert s == [d] + s[1..];
      } else {
        var parts := [[s[0]] + rest[0]] + rest[1..];
        assert Split(s, d) == parts;
        if |rest| > 1 {
          assert parts[1..] == rest[1..];
          assert Join(rest, d) == rest[0] + [d] + Join(rest[1..], d);
        }
        assert s == [s[0]] + s[1..];
      }
    }
  }

  /** No part of a split contains the delimiter. */
  lemma {:induction false} SplitUndelimited(s: string, d: char)
    ensures Undelimited(Split(s, d), d)
  {
    if |s| > 0 {
      var rest := Split(s[1..], d);
      SplitUndelimited(s[1..], d);
      if s[0] == d {
        assert Split(s, d) == [""] + rest;
      } else {
        var parts := [[s[0]] + rest[0]] + rest[1..];
        assert Split(s, d) == parts;
        assert d !in rest[0];
        forall i | 0 <= i < |parts| ensures d !in parts[i] {
          if i > 0 {
            assert parts[i] == rest[i];
          }
        }
      }
    }
  }

  lemma {:induction false} SplitLeading(p: string, d: char, t: string)
    requires d !in p
    ensures Split(p + [d] + t, d) == [p] + Split(t, d)
  {
    if |p| == 0 {
      assert p + [d] + t == [d] + t;
      assert ([d] + t)[1..] == t;
    } else {
      var s := p + [d] + t;
      assert s[1..] == p[1..] + [d] + t;
      SplitLeading(p[1..], d, t);
      assert s[0] == p[0];
      assert [p[0]] + p[1..] == p;
    }
  }

  /** The converse round trip: parts without the delimiter are recovered
      from their join. */
  lemma {:induction false} SplitJoin(parts: seq<string>, d: char)
    requires |parts| >= 1 && Undelimited(parts, d)
    ensures Split(Join(parts, d), d) == parts
  {
    if |parts| == 1 {
      SplitWhole(parts[0], d);
    } else {
      assert d !in parts[0];
      assert Undelimited(parts[1..], d) by {
        forall i | 0 <= i < |parts[1..]| ensures d !in parts[1..][i] {
          assert parts[1..][i] == parts[i + 1];
        }
      }
      SplitJoin(parts[1..], d);
      SplitLeading(parts[0], d, Join(parts[1..], d));
      assert [parts[0]] + parts[1..] == parts;
    }
  }

  lemma {:induction false} SplitWhole(p: string, d: char)
    requires d !in p
    ensures Split(p, d) == [p]
  {
    if |p| > 0 {
      SplitWhole(p[1..], d);
      assert [p[0]] + p[1..] == p;
    }
  }

  /** "p.q" with undotted p and q has exactly the two segments. */
  lemma TwoSegments(p: string, q: string, d: char)
    requires d !in p && d !in q
    ensures Split(p + [d] + q, d) == [p, q]
  {
    SplitLeading(p, d, q);
    SplitWhole(q, d);
  }

  // ---------------------------------------------------------------------
  // (string)$int and PHP's integer-string key cast

  function DigitChar(n: nat): char
    requires n < 10
  {
    ('0' as int + n) as char
  }

  predicate IsDigit(c: char) {
    '0' <= c <= '9'
  }

  predicate IsDigits(s: string) {
    forall k :: 0 <= k < |s| ==> IsDigit(s[k])
  }

  /** Decimal form of a natural number, without leading zeros. */
  function NatToString(n: nat): string
    decreases n
  {
    if n < 10 then [DigitChar(n)] else NatToString(n / 10) + [DigitChar(n % 10)]
  }

  /** PHP's `(string)$i` for an integer. */
  function IntToString(i: int): string {
    if i < 0 then "-" + NatToString(-i) else NatToString(i)
  }

  predicate IsCanonicalNat(s: string) {
    |s| >= 1 && IsDigits(s) && (s[0] != '0' || |s| == 1)
  }

  /** The strings PHP turns into integer array keys ("5", "-3"; not "05", "-0"). */
  predicate IsCanonicalInt(s: string) {
    IsCanonicalNat(s) || (|s| >= 2 && s[0] == '-' && s[1] != '0' && IsCanonicalNat(s[1..]))
  }

  function ParseNat(s: string): nat
    requires IsDigits(s)
  {
    if |s| == 0 then 0
    else ParseNat(s[..|s| - 1]) * 10 + (s[|s| - 1] as int - '0' as int)
  }

  function ParseInt(s: string): int
    requires IsCanonicalInt(s)
  {
    if s[0] == '-' then -(ParseNat(s[1..]) as int) else ParseNat(s)
  }

  /** The key a path segment selects. */
  function SegmentKey(seg: string): Key {
    if IsCanonicalInt(seg) then IntKey(ParseInt(seg)) else StrKey(seg)
  }

  /** A segment that starts with neither a digit nor '-' names a string key. */
  lemma NameSegment(seg: string)
    requires |seg| >= 1 && !IsDigit(seg[0]) && seg[0] != '-'
    ensures SegmentKey(seg) == StrKey(seg)
  {
  }

  lemma {:induction false} NatToStringCanonical(n: nat)
    ensures IsCanonicalNat(NatToString(n)) && ParseNat(NatToString(n)) == n
    decreases n
  {
    var s := NatToString(n);
    if n < 10 {
      assert s[..0] == [];
    } else {
      var t := NatToString(n / 10);
      NatToStringCanonical(n / 10);
      assert s == t + [DigitChar(n % 10)];
      assert s[..|s| - 1] == t;
      LeadingDigit(t);
      assert s[0] == t[0];
    }
  }

  /** A canonical decimal string of a positive number does not start with 0. */
  lemma LeadingDigit(t: string)
    requires IsCanonicalNat(t) && ParseNat(t) >= 1
    ensures t[0] != '0'
  {
    if |t| == 1 {
      assert t[..0] == [];
      assert ParseNat(t) == t[0] as int - '0' as int;
    }
  }

  lemma {:induction false} ParseNatPositive(t: string)
    requires IsDigits(t) && |t| >= 1 && t[0] != '0'
    ensures ParseNat(t) >= 1
    decreases |t|
  {
    if |t| == 1 {
      assert t[..0] == [];
    } else {
      ParseNatPositive(t[..|t| - 1]);
    }
  }

  lemma {:induction false} ParseNatToString(s: string)
    requires IsCanonicalNat(s)
    ensures NatToString(ParseNat(s)) == s
    decreases |s|
  {
    if |s| == 1 {
      assert s[..0] == [];
      assert NatToString(ParseNat(s)) == [s[0]];
    } else {
      var t := s[..|s| - 1];
      assert t[0] == s[0];
      ParseNatPositive(t);
      ParseNatToString(t);
      var n := ParseNat(s);
      assert n == ParseNat(t) * 10 + (s[|s| - 1] as int - '0' as int);
      assert n / 10 == ParseNat(t) && n % 10 == s[|s| - 1] as int - '0' as int;
      assert s == t + [s[|s| - 1]];
    }
  }

  /** `(string)$i` is a canonical integer string that reads back as `i`. */
  lemma IntToStringRoundTrip(i: int)
    ensures IsCanonicalInt(IntToString(i)) && ParseInt(IntToString(i)) == i
  {
    if i < 0 {
      NatToStringCanonical(-i);
      var t := NatToString(-i);
      assert IntToString(i)[1..] == t;
      LeadingDigit(t);
    } else {
      NatToStringCanonical(i);
    }
  }

  /** Every canonical integer string is some integer's `(string)` form. */
  lemma ParseIntRoundTrip(s: string)
    requires IsCanonicalInt(s)
    ensures IntToString(ParseInt(s)) == s
  {
    if s[0] == '-' {
      ParseNatPositive(s[1..]);
      ParseNatToString(s[1..]);
      assert s == "-" + s[1..];
    } else {
      ParseNatToString(s);
    }
  }

  /** A segment selects integer key `i` exactly when it is `(string)$i`. */
  lemma SegmentSelectsIntKey(seg: string, i: int)
    ensures SegmentKey(seg) == IntKey(i) <==> seg == IntToString(i)
  {
    IntToStringRoundTrip(i);
    if IsCanonicalInt(seg) {
      ParseIntRoundTrip(seg);
    }
  }

  // ---------------------------------------------------------------------
  // ArrayHelper::pathExists / getValueByPath

  /** Follows `segs` through nested arrays and objects. */
  function Traverse(v: Value, segs: seq<string>): (r: Option<Value>)
    ensures segs == [] ==> r == Some(v)
    ensures segs != [] && !IsStructured(v) ==> r.None?
    ensures segs != [] && r.Some? ==> Get(AsArray(v), SegmentKey(segs[0])).Some?
    ensures |segs| == 1 && IsStructured(v) ==> r == Get(AsArray(v), SegmentKey(segs[0]))
    decreases |segs|
  {
    if segs == [] then Some(v)
    else if !IsStructured(v) then None
    else
      match Get(AsArray(v), SegmentKey(segs[0]))
      case None => None
      case Some(w) => Traverse(w, segs[1..])
  }

  /** Following `s + t` is following `s`, then `t` from what `s` found: with
      the one-segment case of Traverse, this fixes every multi-segment path. */
  lemma {:induction false} TraverseAppend(v: Value, s: seq<string>, t: seq<string>)
    ensures Traverse(v, s).None? ==> Traverse(v, s + t).None?
    ensures Traverse(v, s).Some? ==> Traverse(v, s + t) == Traverse(Traverse(v, s).value, t)
    decreases |s|
  {
    if s != [] {
      assert (s + t)[0] == s[0];
      assert (s + t)[1..] == s[1..] + t;
      if IsStructured(v) {
        match Get(AsArray(v), SegmentKey(s[0]))
        case None =>
        case Some(w) => TraverseAppend(w, s[1..], t);
      }
    } else {
      assert s + t == t;
    }
  }

  /** The sub-value a Nested key addresses inside `a`, if it exists. */
  function Lookup(a: seq<Pair<Value>>, k: Key): (r: Option<Value>)
    ensures k.IntKey? ==> r == Get(a, k)
    ensures k.StrKey? && Dot !in k.s ==> r == Get(a, SegmentKey(k.s))
  {
    match k
    case IntKey(_) => Get(a, k)
    case StrKey(s) =>
      assert Dot !in s ==> Split(s, Dot) == [s] by {
        if Dot !in s { SplitWhole(s, Dot); }
      }
      Traverse(Arr(a), Split(s, Dot))
  }

  function PathExists(a: seq<Pair<Value>>, k: Key): (p: bool)
    ensures k.IntKey? ==> (p <==> k in Keys(a))
    ensures k.StrKey? && Dot !in k.s ==> (p <==> SegmentKey(k.s) in Keys(a))
  {
    Lookup(a, k).Some?
  }

  /** `getValueByPath` with its default: a missing path reads as null. */
  function ValueByPath(a: seq<Pair<Value>>, k: Key): (v: Value)
    ensures !PathExists(a, k) ==> v == Null
    ensures PathExists(a, k) ==> Lookup(a, k) == Some(v)
  {
    match Lookup(a, k)
    case None => Null
    case Some(v) => v
  }

  /** A dotted path descends one segment at a time: "p.q" is q looked up
      inside whatever p selects. */
  lemma DottedLookup(a: seq<Pair<Value>>, p: string, q: string)
    requires Dot !in p
    ensures Lookup(a, StrKey(p + [Dot] + q)) ==
      match Get(a, SegmentKey(p))
      case None => None
      case Some(w) => Traverse(w, Split(q, Dot))
  {
    SplitLeading(p, Dot, q);
    var segs := [p] + Split(q, Dot);
    assert segs[1..] == Split(q, Dot);
  }

  // ---------------------------------------------------------------------
  // Re-homing prefixes

  function Names(parts: seq<string>): (ks: seq<Key>)
    ensures |ks| == |parts|
    ensures forall i :: 0 <= i < |parts| ==> ks[i] == StrKey(parts[i])
  {
    seq(|parts|, i requires 0 <= i < |parts| => StrKey(parts[i]))
  }

  /** The value-path prefix for errors found under key `k`: `[k]` for an
      integer key, the '.'-separated segments of a string key. */
  function ErrorPrefix(k: Key): (prefix: seq<Key>)
    ensures k.IntKey? ==> prefix == [k]
    ensures k.StrKey? ==> prefix == Names(Split(k.s, Dot))
  {
    match k
    case IntKey(_) => [k]
    case StrKey(s) => Names(Split(s, Dot))
  }

  /** A string key's prefix is its segments: none contains '.', there is at
      least one, and joined with '.' they spell the key again. */
  lemma ErrorPrefixSpellsKey(s: string)
    ensures |ErrorPrefix(StrKey(s))| >= 1
    ensures forall i :: 0 <= i < |ErrorPrefix(StrKey(s))| ==>
      ErrorPrefix(StrKey(s))[i] == StrKey(Split(s, Dot)[i]) && Dot !in Split(s, Dot)[i]
    ensures Join(Split(s, Dot), Dot) == s
  {
    JoinSplit(s, Dot);
    SplitUndelimited(s, Dot);
  }
}

=== FILE: rules.dfy ===
/**
 The data model shared by the validator: rule configuration trees, errors,
 the validation context, data sets, and the external collaborators the
 engine calls but whose code is not part of this model.
 */
module Rules {
  import opened Values

  /** The guard flags every rule inherits from the Rule base class. The
      `when` closure is part of Env.skips. */
  datatype Base = Base(skipOnEmpty: bool, skipOnError: bool)

  const DefaultBase := Base(false, false)

  datatype BooleanConfig = BooleanConfig(
    trueValue: Value,
    falseValue: Value,
    strict: bool,
    message: string,
    base: Base)

  /** A Nested rule: path (or integer key) to a rule, a list of rules or a
      nested array of them. */
  datatype NestedConfig = NestedConfig(
    rules: seq<Pair<Node>>,
    throwOnNotFound: bool,
    notFoundMessage: string,
    message: string,
    base: Base)

  /** A rule object. Callback wraps a closure; Leaf stands for every other
      rule class (Required, Number, Regex, ...), whose handler is external. */
  datatype Rule =
    | Boolean(config: BooleanConfig)
    | Nested(nested: NestedConfig)
    | Callback(id: nat, base: Base)
    | Leaf(tag: nat, parametrized: bool, base: Base)

  /** An entry of a rule configuration array, before normalisation: a rule
      object, a (nested) PHP array of entries, a callable, or any other value. */
  datatype Node =
    | RuleNode(rule: Rule)
    | ListNode(entries: seq<Pair<Node>>)
    | CallableNode(id: nat)
    | OtherNode(value: Value)

  /** A validation error: message, where in the data it occurred, and the
      parameters a presentation layer interpolates. */
  datatype Error = Error(message: string, valuePath: seq<Key>, params: map<string, Value>)

  /** Configuration errors are thrown (InvalidArgumentException), never
      collected into a result. */
  datatype ConfigError =
    | InvalidRule       // Validator::normalizeRule: neither a rule nor a callable
    | EmptyRules        // Nested: empty rule set
    | NotARule          // Nested: a leaf of the rule tree is not a rule
    | NotParametrized   // getOptions / dump: an entry that cannot be dumped

  datatype Outcome<+T> = Ok(value: T) | Fatal(error: ConfigError)

  datatype DataSet =
    | ArrayDataSet(entries: seq<Pair<Value>>)
    | ScalarDataSet(value: Value)
    | CustomDataSet(id: nat, ownRules: Option<seq<Pair<Node>>>, hasHook: bool)

  /** ValidationContext with its parameter bag reduced to the one parameter
      the validator writes, `previousRulesErrored`. */
  datatype Context = Context(data: Option<DataSet>, attribute: Option<string>, previousRulesErrored: bool)

  /** The context RuleSet::validate starts from when called without one. */
  const FreshContext := Context(None, None, false)

  /** Code the engine calls but which is not part of this model. */
  datatype Env = Env(
    format: (string, map<string, Value>) -> string,   // FormatterInterface::format
    looseEquals: (Value, Value) -> bool,               // PHP `==` beyond identity
    skips: (Rule, Value, Context) -> bool,             // `when`, emptiness policy
    callback: (nat, Value, Context) -> seq<Error>,     // Callback closures
    leaf: (nat, Value, Context) -> seq<Error>,         // other rule handlers
    baseOptions: Rule -> seq<Pair<Value>>,             // Rule::getOptions
    name: Rule -> string,                              // getName
    data: DataSet -> Value,                            // DataSetInterface::getData
    attributeValue: (DataSet, string) -> Value)        // getAttributeValue

  function BaseOf(r: Rule): Base {
    match r
    case Boolean(b) => b.base
    case Nested(n) => n.base
    case Callback(_, base) => base
    case Leaf(_, _, base) => base
  }

  /** Whether the rule implements ParametrizedRuleInterface. */
  predicate Parametrized(r: Rule) {
    !r.Leaf? || r.parametrized
  }

  // ---------------------------------------------------------------------
  // Sizes, the termination measure of every walk over a rule tree

  function Sum(xs: seq<nat>): nat {
    if xs == [] then 0 else xs[0] + Sum(xs[1..])
  }

  function RuleSize(r: Rule): nat
    decreases r
  {
    match r
    case Nested(n) => 1 + Sum(seq(|n.rules|, i requires 0 <= i < |n.rules| => NodeSize(n.rules[i].value)))
    case _ => 1
  }

  function NodeSize(n: Node): nat
    decreases n
  {
    match n
    case RuleNode(r) => 1 + RuleSize(r)
    case ListNode(es) => 1 + Sum(seq(|es|, i requires 0 <= i < |es| => NodeSize(es[i].value)))
    case CallableNode(_) => 2
    case OtherNode(_) => 1
  }

  function EntriesSize(es: seq<Pair<Node>>): nat {
    Sum(seq(|es|, i requires 0 <= i < |es| => NodeSize(es[i].value)))
  }

  lemma EntriesSizeCons(es: seq<Pair<Node>>)
    requires es != []
    ensures EntriesSize(es) == NodeSize(es[0].value) + EntriesSize(es[1..])
    ensures NodeSize(es[0].value) <= EntriesSize(es)
  {
    var all := seq(|es|, i requires 0 <= i < |es| => NodeSize(es[i].value));
    var tail := seq(|es[1..]|, i requires 0 <= i < |es[1..]| => NodeSize(es[1..][i].value));
    assert all[1..] == tail;
  }

  lemma RuleSizeNested(n: NestedConfig)
    ensures RuleSize(Nested(n)) == 1 + EntriesSize(n.rules)
  {
    var a := seq(|n.rules|, i requires 0 <= i < |n.rules| => NodeSize(n.rules[i].value));
    var es := n.rules;
    var b := seq(|es|, i requires 0 <= i < |es| => NodeSize(es[i].value));
    assert a == b;
    assert RuleSize(Nested(n)) == 1 + Sum(a);
    assert EntriesSize(es) == Sum(b);
  }

  lemma NodeSizeList(es: seq<Pair<Node>>)
    ensures NodeSize(ListNode(es)) == 1 + EntriesSize(es)
  {
    var a := seq(|es|, i requires 0 <= i < |es| => NodeSize(es[i].value));
    assert NodeSize(ListNode(es)) == 1 + Sum(a);
  }

  function RulesSize(rs: seq<Rule>): nat {
    if rs == [] then 0 else RuleSize(rs[0]) + RulesSize(rs[1..])
  }

  // ---------------------------------------------------------------------
  // Validator::normalizeRule(s)

  predicate IsRuleEntry(n: Node) {
    n.RuleNode? || n.CallableNode?
  }

  /** `is_array($rules) ? $rules : [$rules]`. */
  function AsList(n: Node): (es: seq<Pair<Node>>)
    ensures n.ListNode? ==> es == n.entries
    ensures !n.ListNode? ==> es == [Pair(IntKey(0), n)]
  {
    if n.ListNode? then n.entries else [Pair(IntKey(0), n)]
  }

  /** A callable becomes a Callback rule, a rule stays itself, anything else
      is a configuration error. */
  function NormalizeRule(n: Node): (o: Outcome<Rule>)
    ensures o.Ok? <==> IsRuleEntry(n)
    ensures n.RuleNode? ==> o == Ok(n.rule)
    ensures n.CallableNode? ==> o == Ok(Callback(n.id, DefaultBase))
    ensures o.Fatal? ==> o.error == InvalidRule
    ensures o.Ok? ==> RuleSize(o.value) < NodeSize(n)
  {
    match n
    case RuleNode(r) => Ok(r)
    case CallableNode(id) => Ok(Callback(id, DefaultBase))
    case _ => Fatal(InvalidRule)
  }

  function NormalizeRules(es: seq<Pair<Node>>): (o: Outcome<seq<Rule>>)
    ensures o.Ok? <==> forall i :: 0 <= i < |es| ==> IsRuleEntry(es[i].value)
    ensures o.Ok? ==> |o.value| == |es|
    ensures o.Ok? ==> forall i :: 0 <= i < |es| ==> NormalizeRule(es[i].value) == Ok(o.value[i])
    ensures o.Fatal? ==> o.error == InvalidRule
    ensures o.Ok? ==> RulesSize(o.value) <= EntriesSize(es)
  {
    if es == [] then Ok([])
    else
      match NormalizeRule(es[0].value)
      case Fatal(e) => Fatal(e)
      case Ok(r) =>
        match NormalizeRules(es[1..])
        case Fatal(e) =>
          assert !IsRuleEntry(es[1..][0].value) || exists i :: 0 <= i < |es[1..]| && !IsRuleEntry(es[1..][i].value);
          Fatal(e)
        case Ok(rs) =>
          EntriesSizeCons(es);
          var out := [r] + rs;
          assert forall i :: 1 <= i < |es| ==> es[i] == es[1..][i - 1];
          assert out[1..] == rs;
          Ok(out)
  }

  /** The rule list a configuration entry stands for. */
  function RuleList(n: Node): (o: Outcome<seq<Rule>>)
    ensures o.Ok? ==> RulesSize(o.value) < NodeSize(n)
  {
    var es := AsList(n);
    assert !n.ListNode? ==> EntriesSize(es) == NodeSize(n) by {
      if !n.ListNode? {
        EntriesSizeCons(es);
        assert es[1..] == [];
      }
    }
    NormalizeRules(es)
  }
}

=== FILE: validator.dfy ===
/**
 Validator::validate: the input becomes a data set, a data set that
 provides its own rules replaces the caller's, each attribute's entry is
 normalised into a rule list and run against the value the attribute
 selects, and a post-validation hook sees the result once, at the end.
 */
module Validator {
  import opened Values
  import opened Paths
  import opened Rules
  import opened Engine

  /** What `validate` accepts: a data set, or any other value. */
  datatype Input = Raw(value: Value) | Given(dataSet: DataSet)

  /** The Result, and what the post-validation hook, when the data set has
      one, is handed. */
  datatype Report = Report(errors: seq<Error>, hooked: Option<seq<Error>>)

  /** `normalizeDataSet`: total, and only a data set given as such can
      provide rules or a hook. */
  function NormalizeDataSet(input: Input): (ds: DataSet)
    ensures input.Given? ==> ds == input.dataSet
    ensures input.Raw? && IsStructured(input.value) ==> ds == ArrayDataSet(AsArray(input.value))
    ensures input.Raw? && !IsStructured(input.value) ==> ds == ScalarDataSet(input.value)
    ensures ds.CustomDataSet? ==> input.Given?
  {
    match input
    case Given(ds) => ds
    case Raw(v) => if IsStructured(v) then ArrayDataSet(AsArray(v)) else ScalarDataSet(v)
  }

  /** Normalising twice is normalising once. */
  lemma NormalizeIdempotent(input: Input)
    ensures NormalizeDataSet(Given(NormalizeDataSet(input))) == NormalizeDataSet(input)
  {
  }

  /** A rules provider's own rules replace the caller's entirely. */
  function EffectiveRules(ds: DataSet, rules: seq<Pair<Node>>): (rs: seq<Pair<Node>>)
    ensures ds.CustomDataSet? && ds.ownRules.Some? ==> rs == ds.ownRules.value
    ensures !(ds.CustomDataSet? && ds.ownRules.Some?) ==> rs == rules
  {
    if ds.CustomDataSet? && ds.ownRules.Some? then ds.ownRules.value else rules
  }

  /** The value an attribute validates and the context it runs under: the
      whole payload under the stringified index for an integer attribute,
      the attribute's own value under the shared context otherwise. */
  function Target(env: Env, ds: DataSet, attribute: Key, ctx: Context): (t: (Value, Context))
    ensures attribute.IntKey? ==>
      (t.0 == env.data(ds) && t.1 == ctx.(attribute := Some(IntToString(attribute.i)))
       && SegmentKey(t.1.attribute.value) == attribute)
    ensures attribute.StrKey? ==> t.0 == env.attributeValue(ds, attribute.s) && t.1 == ctx
  {
    match attribute
    case IntKey(i) =>
      SegmentSelectsIntKey(IntToString(i), i);
      (env.data(ds), ctx.(attribute := Some(IntToString(i))))
    case StrKey(s) => (env.attributeValue(ds, s), ctx)
  }

  /** One attribute's rules run through validateInternal. The shared context
      comes back with the flag a named attribute's rules raised; an integer
      attribute ran on a copy, so the shared context is as it was. */
  function ValidateAttribute(env: Env, ds: DataSet, attribute: Pair<Node>, ctx: Context): (o: Outcome<Run>)
    ensures NormalizeRules(AsList(attribute.value)).Fatal? ==> o == Fatal(InvalidRule)
    ensures o.Fatal? ==> o.error == InvalidRule
    ensures o.Ok? && attribute.key.IntKey? ==> o.value.context == ctx
    ensures o.Ok? && attribute.key.StrKey? ==>
      o.value.context == ctx.(previousRulesErrored := ctx.previousRulesErrored || o.value.errors != [])
    ensures NormalizeRules(AsList(attribute.value)).Ok? ==>
      var t := Target(env, ds, attribute.key, ctx);
      var run := ValidateInternal(env, t.0, NormalizeRules(AsList(attribute.value)).value, t.1);
      && (run.Fatal? ==> o == Fatal(InvalidRule))
      && (run.Ok? ==> o.Ok? && o.value.errors == run.value.errors)
  {
    match NormalizeRules(AsList(attribute.value))
    case Fatal(e) => Fatal(e)
    case Ok(rs) =>
      var t := Target(env, ds, attribute.key, ctx);
      match ValidateInternal(env, t.0, rs, t.1)
      case Fatal(e) => Fatal(e)
      case Ok(run) => Ok(Run(run.errors, if attribute.key.IntKey? then ctx else run.context))
  }

  /** The loop over the rule map, in map order. */
  function ValidateAttributes(env: Env, ds: DataSet, rules: seq<Pair<Node>>, ctx: Context): (o: Outcome<Run>)
    ensures o.Fatal? ==> o.error == InvalidRule
    ensures o.Ok? ==> o.value.context.data == ctx.data && o.value.context.attribute == ctx.attribute
    ensures o.Ok? && ctx.previousRulesErrored ==> o.value.context.previousRulesErrored
    decreases |rules|
  {
    if rules == [] then Ok(Run([], ctx))
    else
      match ValidateAttribute(env, ds, rules[0], ctx)
      case Fatal(e) => Fatal(e)
      case Ok(first) =>
        match ValidateAttributes(env, ds, rules[1..], first.context)
        case Fatal(e) => Fatal(e)
        case Ok(rest) => Ok(Run(first.errors + rest.errors, rest.context))
  }

  /** `validate($data, $rules)`. */
  function Validate(env: Env, input: Input, rules: seq<Pair<Node>>): (o: Outcome<Report>)
    ensures o.Fatal? ==> o.error == InvalidRule
    ensures o.Ok? ==> (o.value.hooked.Some? <==> NormalizeDataSet(input).CustomDataSet? && NormalizeDataSet(input).hasHook)
    ensures o.Ok? && o.value.hooked.Some? ==> o.value.hooked.value == o.value.errors
    ensures var ds := NormalizeDataSet(input);
      var run := ValidateAttributes(env, ds, EffectiveRules(ds, rules), Context(Some(ds), None, false));
      && (run.Fatal? ==> o == Fatal(InvalidRule))
      && (run.Ok? ==> o.Ok? && o.value.errors == run.value.errors)
  {
    var ds := NormalizeDataSet(input);
    match ValidateAttributes(env, ds, EffectiveRules(ds, rules), Context(Some(ds), None, false))
    case Fatal(e) => Fatal(e)
    case Ok(run) =>
      Ok(Report(run.errors, if ds.CustomDataSet? && ds.hasHook then Some(run.errors) else None))
  }

  // ---------------------------------------------------------------------
  // Properties across calls

  /** A rules provider's answer does not depend on the caller's rules. */
  lemma ProvidedRulesOverride(env: Env, ds: DataSet, rules1: seq<Pair<Node>>, rules2: seq<Pair<Node>>)
    requires ds.CustomDataSet? && ds.ownRules.Some?
    ensures Validate(env, Given(ds), rules1) == Validate(env, Given(ds), rules2)
  {
  }

  /** One step of the loop over the rule map. */
  lemma ValidateAttributesStep(env: Env, ds: DataSet, rules: seq<Pair<Node>>, ctx: Context)
    requires rules != []
    ensures var f := ValidateAttribute(env, ds, rules[0], ctx);
      ValidateAttributes(env, ds, rules, ctx) == Chain(f, ValidateAttributes(env, ds, rules[1..], Resume(f, ctx)))
  {
  }

  /** Attributes are processed in map order: errors of `r1 + r2` are those of
      `r1` followed by those of `r2`, which start from the context `r1` left. */
  lemma {:induction false} ValidateAttributesAppend(env: Env, ds: DataSet, r1: seq<Pair<Node>>, r2: seq<Pair<Node>>, ctx: Context)
    ensures var x := ValidateAttributes(env, ds, r1, ctx);
      ValidateAttributes(env, ds, r1 + r2, ctx) == Chain(x, ValidateAttributes(env, ds, r2, Resume(x, ctx)))
    decreases |r1|
  {
    var x := ValidateAttributes(env, ds, r1, ctx);
    if r1 == [] {
      assert r1 + r2 == r2;
      var none: seq<Error> := [];
      assert forall y: seq<Error> :: none + y == y;
    } else {
      assert (r1 + r2)[0] == r1[0];
      assert (r1 + r2)[1..] == r1[1..] + r2;
      ValidateAttributesStep(env, ds, r1, ctx);
      ValidateAttributesStep(env, ds, r1 + r2, ctx);
      var f := ValidateAttribute(env, ds, r1[0], ctx);
      if f.Ok? {
        var next := f.value.context;
        var x' := ValidateAttributes(env, ds, r1[1..], next);
        var y := ValidateAttributes(env, ds, r2, Resume(x', next));
        ValidateAttributesAppend(env, ds, r1[1..], r2, next);
        assert ValidateAttributes(env, ds, r1 + r2, ctx) == Chain(f, Chain(x', y));
        ChainAssoc(f, x', y);
        assert x == Chain(f, x');
        if x'.Ok? {
          assert Resume(x, ctx) == Resume(x', next);
        }
      }
    }
  }

  /** With one named attribute, `validate` reports exactly the errors its
      rules produce on the attribute's value, in rule order and unchanged. */
  lemma SingleNamedAttribute(env: Env, ds: DataSet, name: string, entry: Node, rs: seq<Rule>)
    requires !(ds.CustomDataSet? && ds.ownRules.Some?)
    requires NormalizeRules(AsList(entry)) == Ok(rs)
    requires ValidateInternal(env, env.attributeValue(ds, name), rs, Context(Some(ds), None, false)).Ok?
    ensures Validate(env, Given(ds), [Pair(StrKey(name), entry)]).Ok?
    ensures Validate(env, Given(ds), [Pair(StrKey(name), entry)]).value.errors ==
      ValidateInternal(env, env.attributeValue(ds, name), rs, Context(Some(ds), None, false)).value.errors
  {
    var a := Pair(StrKey(name), entry);
    var ctx := Context(Some(ds), None, false);
    ValidateAttributesStep(env, ds, [a], ctx);
    assert [a][1..] == [];
    var f := ValidateAttribute(env, ds, a, ctx);
    assert f.Ok?;
    var none: seq<Error> := [];
    assert f.value.errors + none == f.value.errors;
  }

  /** The report of `r1 + r2` lists the errors of `r1`'s attributes, then
      those of `r2`'s, which ran from the context `r1` left. */
  lemma ValidateConcatenates(env: Env, ds: DataSet, r1: seq<Pair<Node>>, r2: seq<Pair<Node>>)
    requires !(ds.CustomDataSet? && ds.ownRules.Some?)
    ensures var ctx := Context(Some(ds), None, false);
      var x := ValidateAttributes(env, ds, r1, ctx);
      var y := ValidateAttributes(env, ds, r2, Resume(x, ctx));
      && (Validate(env, Given(ds), r1 + r2).Ok? <==> x.Ok? && y.Ok?)
      && (x.Ok? && y.Ok? ==> Validate(env, Given(ds), r1 + r2).value.errors == x.value.errors + y.value.errors)
  {
    ValidateAttributesAppend(env, ds, r1, r2, Context(Some(ds), None, false));
  }

  /** An entry that is neither a rule nor a callable fails its attribute. */
  lemma BadEntryFailsAttribute(env: Env, ds: DataSet, a: Pair<Node>, ctx: Context, j: nat)
    requires j < |AsList(a.value)| && !IsRuleEntry(AsList(a.value)[j].value)
    ensures ValidateAttribute(env, ds, a, ctx) == Fatal(InvalidRule)
  {
    var es := AsList(a.value);
    assert !(forall i :: 0 <= i < |es| ==> IsRuleEntry(es[i].value));
  }

  /** An entry that is neither a rule nor a callable, under any attribute,
      fails the whole call; the failure is never a collected error. */
  lemma {:induction false} BadEntryFailsValidation(env: Env, ds: DataSet, rules: seq<Pair<Node>>, ctx: Context, i: nat, j: nat)
    requires i < |rules| && j < |AsList(rules[i].value)| && !IsRuleEntry(AsList(rules[i].value)[j].value)
    ensures ValidateAttributes(env, ds, rules, ctx) == Fatal(InvalidRule)
    decreases i
  {
    if i == 0 {
      BadEntryFailsAttribute(env, ds, rules[0], ctx, j);
    } else {
      assert rules[1..][i - 1] == rules[i];
      BadEntryFailsValidation(env, ds, rules[1..], Resume(ValidateAttribute(env, ds, rules[0], ctx), ctx), i - 1, j);
    }
    FailurePropagates(env, ds, rules, ctx);
  }

  /** A failing attribute, or a failure after a passing one, fails the loop. */
  lemma FailurePropagates(env: Env, ds: DataSet, rules: seq<Pair<Node>>, ctx: Context)
    requires rules != []
    ensures var f := ValidateAttribute(env, ds, rules[0], ctx);
      (f.Fatal? || ValidateAttributes(env, ds, rules[1..], Resume(f, ctx)).Fatal?) ==>
        ValidateAttributes(env, ds, rules, ctx) == Fatal(InvalidRule)
  {
    ValidateAttributesStep(env, ds, rules, ctx);
  }

  /** A failure under a named attribute is visible to the attributes after
      it: they start with the flag raised. A failure under an integer
      attribute is not. */
  lemma FlagCrossesNamedAttributes(env: Env, ds: DataSet, a: Pair<Node>, rest: seq<Pair<Node>>, ctx: Context)
    requires ValidateAttribute(env, ds, a, ctx).Ok?
    ensures var first := ValidateAttribute(env, ds, a, ctx).value;
      && (a.key.StrKey? && first.errors != [] ==> first.context.previousRulesErrored)
      && (a.key.IntKey? ==> first.context.previousRulesErrored == ctx.previousRulesErrored)
      && ValidateAttributes(env, ds, [a] + rest, ctx) ==
        match ValidateAttributes(env, ds, rest, first.context)
        case Fatal(e) => Fatal(e)
        case Ok(b) => Ok(Run(first.errors + b.errors, b.context))
  {
    assert ([a] + rest)[0] == a;
    assert ([a] + rest)[1..] == rest;
  }
}

=== FILE: values.dfy ===
/**
 PHP values as the validator sees them: scalars, ordered keyed arrays and
 objects. An array is an ordered sequence of key/value pairs; PHP keeps its
 keys unique, which the model states as the predicate UniqueKeys where a
 property depends on it.
 */
module Values {

  datatype Option<+T> = None | Some(value: T)

  /** An array key: PHP casts canonical decimal strings to integers. */
  datatype Key = IntKey(i: int) | StrKey(s: string)

  datatype Pair<+V> = Pair(key: Key, value: V)

  /** Floats and resources are not part of this model. An object carries an
      identity so that `===` on objects (same instance) is value equality. */
  datatype Value =
    | Null
    | Bool(b: bool)
    | Int(i: int)
    | Str(s: string)
    | Arr(entries: seq<Pair<Value>>)
    | Obj(id: nat, props: seq<Pair<Value>>)

  /** The keys of an array, in order. */
  function Keys<V>(a: seq<Pair<V>>): (ks: seq<Key>)
    ensures |ks| == |a|
    ensures forall i :: 0 <= i < |a| ==> ks[i] == a[i].key
  {
    if a == [] then [] else [a[0].key] + Keys(a[1..])
  }

  ghost predicate UniqueKeys<V>(a: seq<Pair<V>>) {
    forall i, j :: 0 <= i < j < |a| ==> a[i].key != a[j].key
  }

  /** The value stored under `k`: the first pair with that key. */
  function Get<V>(a: seq<Pair<V>>, k: Key): (r: Option<V>)
    ensures r.None? <==> k !in Keys(a)
    ensures r.Some? ==> exists i :: 0 <= i < |a| && a[i] == Pair(k, r.value)
  {
    if a == [] then None
    else if a[0].key == k then Some(a[0].value)
    else
      var r := Get(a[1..], k);
      assert r.Some? ==> exists i :: 0 <= i < |a[1..]| && a[1..][i] == Pair(k, r.value);
      assert Keys(a) == [a[0].key] + Keys(a[1..]);
      r
  }

  /** PHP's `is_array($v) || is_object($v)`. */
  predicate IsStructured(v: Value) {
    v.Arr? || v.Obj?
  }

  /** PHP's `(array)$v` for an array or an object. */
  function AsArray(v: Value): (a: seq<Pair<Value>>)
    requires IsStructured(v)
    ensures v.Arr? ==> a == v.entries
    ensures v.Obj? ==> a == v.props
  {
    if v.Arr? then v.entries else v.props
  }

  /** PHP's `gettype($v)`. */
  function TypeName(v: Value): (t: string)
    ensures IsStructured(v) <==> t in {"array", "object"}
    ensures v == Null <==> t == "NULL"
  {
    match v
    case Null => "NULL"
    case Bool(_) => "boolean"
    case Int(_) => "integer"
    case Str(_) => "string"
    case Arr(_) => "array"
    case Obj(_, _) => "object"
  }
}

=== FILE: wellformed.dfy ===
/**
 When validation never aborts: a rule configuration whose every entry, at
 every depth that the engine normalises, is a rule or a callable (or an
 array of them) only ever yields errors, never an InvalidRule.
 */
module WellFormed {
  import opened Values
  import opened Paths
  import opened Rules
  import opened Engine
  import Validator

  /** A rule whose Nested configuration, if it is one, is well formed. */
  ghost predicate WellFormedRule(r: Rule)
    decreases RuleSize(r), 0
  {
    r.Nested? ==> (RuleSizeNested(r.nested); WellFormedEntries(r.nested.rules))
  }

  /** A list every member of which normalises to a well-formed rule. */
  ghost predicate WellFormedRuleEntries(es: seq<Pair<Node>>)
    decreases EntriesSize(es), 0
  {
    if es == [] then true
    else
      EntriesSizeCons(es);
      && (es[0].value.CallableNode? || (es[0].value.RuleNode? && WellFormedRule(es[0].value.rule)))
      && WellFormedRuleEntries(es[1..])
  }

  /** A rule map (Validator's, or a Nested rule's paths) whose every entry
      stands for a list of well-formed rules. */
  ghost predicate WellFormedEntries(es: seq<Pair<Node>>)
    decreases EntriesSize(es), 1
  {
    if es == [] then true
    else
      EntriesSizeCons(es);
      var n := es[0].value;
      assert EntriesSize(AsList(n)) <= NodeSize(n) by {
        if n.ListNode? {
          NodeSizeList(n.entries);
        } else {
          EntriesSizeCons(AsList(n));
          assert AsList(n)[1..] == [];
        }
      }
      WellFormedRuleEntries(AsList(n)) && WellFormedEntries(es[1..])
  }

  /** The i-th member of a well-formed list. */
  lemma {:induction false} RuleEntryAt(es: seq<Pair<Node>>, i: nat)
    requires WellFormedRuleEntries(es) && i < |es|
    ensures es[i].value.CallableNode? || (es[i].value.RuleNode? && WellFormedRule(es[i].value.rule))
    decreases i
  {
    EntriesSizeCons(es);
    if i > 0 {
      assert es[1..][i - 1] == es[i];
      RuleEntryAt(es[1..], i - 1);
    }
  }

  /** A well-formed list normalises, into well-formed rules. */
  lemma NormalizesWellFormed(es: seq<Pair<Node>>)
    requires WellFormedRuleEntries(es)
    ensures NormalizeRules(es).Ok?
    ensures forall i :: 0 <= i < |NormalizeRules(es).value| ==> WellFormedRule(NormalizeRules(es).value[i])
  {
    forall i | 0 <= i < |es|
      ensures IsRuleEntry(es[i].value)
    {
      RuleEntryAt(es, i);
    }
    forall i | 0 <= i < |NormalizeRules(es).value|
      ensures WellFormedRule(NormalizeRules(es).value[i])
    {
      RuleEntryAt(es, i);
    }
  }

  // ---------------------------------------------------------------------
  // The engine, by the same mutual recursion as its definition

  lemma {:induction false} ApplyNeverFails(env: Env, r: Rule, v: Value, ctx: Context)
    requires WellFormedRule(r)
    ensures Apply(env, r, v, ctx).Ok?
    decreases RuleSize(r), 0
  {
    if !Skipped(env, r, v, ctx) && r.Nested? && IsStructured(v) {
      RuleSizeNested(r.nested);
      NestedEntriesNeverFails(env, r.nested, AsArray(v), r.nested.rules);
    }
  }

  lemma {:induction false} ValidateInternalNeverFails(env: Env, v: Value, rules: seq<Rule>, ctx: Context)
    requires forall i :: 0 <= i < |rules| ==> WellFormedRule(rules[i])
    ensures ValidateInternal(env, v, rules, ctx).Ok?
    decreases RulesSize(rules), 1
  {
    if rules != [] {
      ApplyNeverFails(env, rules[0], v, ctx);
      var errs := Apply(env, rules[0], v, ctx).value;
      assert forall i :: 0 <= i < |rules[1..]| ==> rules[1..][i] == rules[i + 1];
      ValidateInternalNeverFails(env, v, rules[1..], Next(ctx, errs));
    }
  }

  lemma {:induction false} NestedEntryNeverFails(env: Env, n: NestedConfig, a: seq<Pair<Value>>, e: Pair<Node>)
    requires WellFormedRuleEntries(AsList(e.value))
    ensures NestedEntry(env, n, a, e).Ok?
    decreases NodeSize(e.value), 1
  {
    if !(n.throwOnNotFound && !PathExists(a, e.key)) {
      NormalizesWellFormed(AsList(e.value));
      var rules := RuleList(e.value).value;
      ValidateInternalNeverFails(env, ValueByPath(a, e.key), rules, FreshContext);
    }
  }

  lemma {:induction false} NestedEntriesNeverFails(env: Env, n: NestedConfig, a: seq<Pair<Value>>, es: seq<Pair<Node>>)
    requires WellFormedEntries(es)
    ensures NestedEntries(env, n, a, es).Ok?
    decreases EntriesSize(es), 2
  {
    if es != [] {
      EntriesSizeCons(es);
      NestedEntryNeverFails(env, n, a, es[0]);
      NestedEntriesNeverFails(env, n, a, es[1..]);
    }
  }

  /** Nested::validateValue on a well-formed configuration. */
  lemma NestedValidateNeverFails(env: Env, n: NestedConfig, v: Value)
    requires WellFormedEntries(n.rules)
    ensures NestedValidate(env, n, v).Ok?
  {
    if IsStructured(v) {
      NestedEntriesNeverFails(env, n, AsArray(v), n.rules);
    }
  }

  // ---------------------------------------------------------------------
  // Validator::validate

  lemma {:induction false} ValidateAttributesNeverFail(env: Env, ds: DataSet, rules: seq<Pair<Node>>, ctx: Context)
    requires WellFormedEntries(rules)
    ensures Validator.ValidateAttributes(env, ds, rules, ctx).Ok?
    decreases |rules|
  {
    if rules != [] {
      EntriesSizeCons(rules);
      var a := rules[0];
      NormalizesWellFormed(AsList(a.value));
      var t := Validator.Target(env, ds, a.key, ctx);
      ValidateInternalNeverFails(env, t.0, NormalizeRules(AsList(a.value)).value, t.1);
      var first := Validator.ValidateAttribute(env, ds, a, ctx);
      ValidateAttributesNeverFail(env, ds, rules[1..], first.value.context);
    }
  }

  /** `validate` with a well-formed rule map (the data set's own, when it
      provides one) returns a Result. */
  lemma ValidateNeverFails(env: Env, input: Validator.Input, rules: seq<Pair<Node>>)
    requires var ds := Validator.NormalizeDataSet(input);
      WellFormedEntries(Validator.EffectiveRules(ds, rules))
    ensures Validator.Validate(env, input, rules).Ok?
  {
    var ds := Validator.NormalizeDataSet(input);
    ValidateAttributesNeverFail(env, ds, Validator.EffectiveRules(ds, rules), Context(Some(ds), None, false));
  }
}
